=== FILE: README.md ===
# Dengue case-based reasoning — a Dafny model

The system is a case-based reasoning (CBR) diagnostic aid for dengue
haemorrhagic fever (DBD). A patient's ticked symptoms form a query. The query
is scored against every stored case with a weighted distance, the ten most
similar cases are retrieved, and a similarity-weighted vote over them yields:

- a diagnosis: `DBD_POSITIF`, `SUSPEK_DBD` or `BUKAN_DBD`;
- a confidence percentage;
- the vote distribution;
- a severity: `RINGAN`, `SEDANG`, `BERAT`, `OBSERVASI` or `NON_DBD`, or
  `UNKNOWN` when no case is retrieved.

The case base comes from a hematology dataset. Each dataset row becomes one
case, and fixed lab-value thresholds derive its symptom flags and severity. The
two converters apply different rules:

- The offline converter is fully deterministic.
- The in-app loader also draws some flags at random.

Modules, following the program's structure:

| file | module | models |
|---|---|---|
| `options.dfy` | `Options` | optional values, i.e. dictionary keys that may be absent |
| `labels.dfy` | `Labels` | diagnosis and severity labels, label order, label consistency |
| `cases.dfy` | `Cases` | the 15 symptom flags and 3 lab flags of a case or query |
| `rows.dfy` | `Rows` | one dataset row after string normalisation, and the diagnosis it implies |
| `similarity.dfy` | `Similarity` | the symptoms-only and lab-aware similarity scores |
| `ranking.dfy` | `Ranking` | sorting the scores, and `head(k)` retrieval |
| `voting.dfy` | `Voting` | the weighted vote: diagnosis, confidence, severity |
| `caseids.dfy` | `CaseIds` | zero-padded `CSV_nnnn` identifiers |
| `converter.dfy` | `Converter` | the deterministic dataset converter |
| `loader.dfy` | `Loader` | the in-app dataset loader; its random draws are a parameter |
| `pipeline.dfy` | `Pipeline` | the diagnose action: query, score, retrieve, vote |
| `example.dfy` | `Walkthrough` | a three-case worked example of the diagnose action |

Modelling choices:

- **Weights are exact integers.** Every weight is in hundredths, so a score is
  an exact integer: 100 minus the weighted distance. The source computes the
  same value in floating point and multiplies it by 100.
- **Votes are exact rationals** (`real`).
- **A query symptom may be missing** (`None`). The symptoms-only score reads a
  missing symptom as 0. The lab-aware score skips it.
- **A lab flag counts only when both records carry it.**

## Model

| member | source | states |
|---|---|---|
| Similarity.WeightTables | app.py:337-422 | Every weight is positive. The symptoms-only weights total 100 hundredths. The lab-aware profile's symptom weights total 74 and its lab weights total 30. |
| Similarity.Distance | app.py:429-434 | On 0/1 flags the weighted distance never exceeds the profile's total weight. |
| Similarity.Matched | app.py:436-437 | The matched-symptom count never exceeds the number of symptoms the query marks 1. |
| Similarity.SymptomsOnlyScore | app.py:407-449 | The row carries the case's id, diagnosis and severity. The score is at most 100, and at least 0 on 0/1 flags. It is exactly 100 iff the query, with missing keys read as 0, equals the case on all 15 symptoms. |
| Similarity.LabAwareScore | app.py:313-405 | Same id, diagnosis and severity as the case. Same matched count as the symptoms-only profile. The score is at most 100 and at least -4 on 0/1 flags. With no lab keys in the query it is at least 26. |
| Similarity.DistanceZeroIff | app.py:429-439 | On records with every key present, the distance is 0 iff the records agree on every feature. |
| Similarity.DistanceIsMismatchWeight | app.py:429-434 | On 0/1 flags, the distance is the total weight of the features where the records disagree. |
| Similarity.SymptomsOnlyIsMismatch | app.py:429-439 | On 0/1 records, the symptoms-only score is 100 minus the weights of the mismatched symptoms. |
| Similarity.LabAwareIsMismatch | app.py:369-392 | On 0/1 records, the lab-aware score is 100 minus the weights of the mismatched present symptoms and of the lab flags both sides carry. |
| Similarity.SelfSimilarity | app.py:313-449 | A case compared with a full copy of itself scores 100 under both profiles. |
| Similarity.Symmetric | app.py:369-439 | When every key is present on both sides, swapping query and case leaves both scores unchanged. |
| Similarity.SymptomsOnlyMissingReadsZero | app.py:430 | Under the symptoms-only profile, a missing query symptom gives the same row as a symptom set to 0. |
| Similarity.LabAwareMissingIsSkipped | app.py:370 | Under the lab-aware profile, a missing query symptom scores as if the query agreed with the case on it: it adds no distance. |
| Similarity.LabFlagNeedsBoth | app.py:382-389 | When the query or the case lacks a lab flag, setting the query's flag lowers the lab-aware score by the weighted difference with the case's flag. That is 0 when the case lacks the column, so only flags both sides carry count. |
| Similarity.MismatchCostsWeight | app.py:432-434 | Turning one agreeing symptom into a disagreeing one lowers the symptoms-only score by exactly that symptom's weight. |
| Similarity.LabAwareFloorReached | app.py:336-360 | An all-ones query against an all-zeros case scores -4 under the lab-aware profile, so that profile's floor is reached. |
| Similarity.LabAwareAllMismatched | app.py:336-392 | When every symptom and lab flag is present on both sides and disagrees, the lab-aware score is -4: the whole 104-hundredth weight counts as distance. |
| Similarity.MatchedOnlySeesOnes | app.py:378-379 | Two queries that mark the same symptoms 1 have the same matched count. |
| Similarity.MatchedAllOnes | app.py:378-379 | The matched count equals the number of symptoms the query marks 1 iff the case has every one of them. |
| Similarity.MatchedNoneIff | app.py:378-379 | The matched count is 0 iff no symptom is 1 in both the query and the case. |
| Ranking.Insert | app.py:449 | Inserting into a descending table keeps it descending and adds exactly that row. |
| Ranking.InsertBehindHead | app.py:449 | A row scoring below the head of a descending table goes behind it: the head followed by the rest with the row inserted is still descending and holds exactly the old rows plus the new one. |
| Ranking.Sort | app.py:449 | The result is in descending score order and is a permutation of the input (multiset equality). |
| Ranking.Similarities | app.py:424-449 | For a non-empty case base: one row per stored case, in descending score order, and a permutation of the per-case scores. |
| Ranking.ScoreAll | app.py:425-447 | One row per stored case, in store order, carrying that case's id, diagnosis and severity. |
| Ranking.PermutationCovers | app.py:449 | A reordering loses no row: every element of the original is in the permutation. |
| Ranking.SimilaritiesCoverStore | app.py:425-449 | Sorting keeps the per-case rows: each stored case's row is in the ranking, and every ranked row is the row of some stored case. |
| Ranking.Retrieve | app.py:453-464 | The result is a prefix of the ranking. Its length is min(k, n) for k >= 0 and max(n + k, 0) for negative k. On a sorted ranking it stays sorted, and every retrieved score is at least every score left out. |
| Voting.FirstSeen | app.py:497-498 | Gives the first position at which a severity occurs. |
| Voting.Accumulate | app.py:491-499 | A severity is a key iff it occurs. Keys appear in first-seen order, without repeats. Each key's weight is the sum of its ballots. The weights sum to the sum of all ballots. |
| Voting.DiagnosisTally | app.py:485-495 | Each label's vote is 100 times its rows' summed score over the total. |
| Voting.SeverityTally | app.py:491-499 | Each severity's weight is its rows' summed score over the total. The keys are in first-seen order and the weights sum to the rows' total score divided by `total`. |
| Voting.FirstMaxIndex | app.py:502 | Returns a maximal entry, strictly greater than every entry before it (Python's `max` keeps the first maximum). |
| Voting.Winner | app.py:502-503 | The winning label has the most votes. Ties go to the label earlier in `DBD_POSITIF, SUSPEK_DBD, BUKAN_DBD`. |
| Voting.FinalSeverity | app.py:506 | UNKNOWN iff no rows. Otherwise the grade occurs among the rows, has the largest share, and beats every severity first seen before it. |
| Voting.ShareAt | app.py:497-499 | The weight stored under each severity key is that severity's share of the total similarity, and the key occurs among the rows. |
| Voting.LargestKeyWins | app.py:506 | The severity at a maximal position of the weights has a share at least that of every severity among the rows. |
| Voting.FirstLargestKeyBeatsEarlier | app.py:506 | The severity at the first maximal position has a strictly larger share than every severity first seen before it. |
| Voting.Diagnose | app.py:469-508 | Confidence is the winner's vote. The winner has the most votes and wins ties by label order. With no rows, all votes are 0 and the result is DBD_POSITIF. With rows, each vote is the label's share in percent. The severity is FinalSeverity. |
| Voting.ScoreForPartition | app.py:493-495 | The per-label score sums partition the total score. |
| Voting.VotesSumTo100 | app.py:494-495 | With at least one row, the three votes add up to 100. |
| Voting.SeverityWeightsSumToOne | app.py:494-499 | With at least one row, the severity weights add up to 1. |
| Voting.VotesArePercentages | app.py:494-503 | With non-negative scores, every vote and the confidence lie between 0 and 100. |
| Voting.Unanimous | app.py:493-503 | When every retrieved row has the same diagnosis, that diagnosis wins with confidence 100. |
| Voting.TotalAtLeastFirst | app.py:482 | With no negative score, the total similarity is at least the first row's score. |
| CaseIds.ZeroPad | csv_to_json_converter.py:36 | Left-pads with `'0'` characters to the given width: the result ends with the input, everything before it is `'0'`, and nothing is ever truncated. |
| CaseIds.FormatId | csv_to_json_converter.py:36 | The identifier is the prefix followed by an all-digit tail of at least the given width, and that tail reads back as the number formatted. The loader's three-digit variant (app.py line 127) is the same function at width 3. |
| CaseIds.ParsePadded | csv_to_json_converter.py:36 | Reading back a zero-padded decimal gives the number that was formatted. |
| CaseIds.FormatIdInjective | csv_to_json_converter.py:36 | Different row numbers give different identifiers. |
| Rows.RowDiagnosis | csv_to_json_converter.py:32-37 | DBD_POSITIF iff the result is positive, otherwise BUKAN_DBD. The in-app loader applies the same rule (app.py lines 197-210). |
| Converter.ConvertSeverity | csv_to_json_converter.py:56-106 | NON_DBD iff negative. For positive rows: BERAT iff platelets < 20000, SEDANG iff 20000 <= platelets < 70000, RINGAN iff platelets >= 70000. |
| Converter.PositiveSymptoms | csv_to_json_converter.py:47-88 | For positive rows: flags are 0/1; the seven general symptoms are 1; the platelet-driven flags follow the thresholds listed below the table. |
| Converter.NegativeSymptoms | csv_to_json_converter.py:90-106 | For negative rows: flags are 0/1; fever and aches follow WBC < 5000; headache, lethargy and anorexia follow Hb below 12, 11 and 10; every other flag is 0. |
| Converter.ConvertSymptoms | csv_to_json_converter.py:47-105 | See the flag rules below the table. |
| Converter.ConvertRow | csv_to_json_converter.py:35-106 | Flags are 0/1. Diagnosis and severity are consistent. NON_DBD iff BUKAN_DBD. No lab columns. |
| Converter.Convert | csv_to_json_converter.py:23-116 | One case per row, in row order, with ids `CSV_` plus the 1-based row number in four digits. Identifiers are pairwise distinct. |
| Converter.ConvertIdsDistinct | csv_to_json_converter.py:36 | Rows at different positions get different identifiers. |
| Converter.SeverityMonotone | csv_to_json_converter.py:56-88 | For positive rows, a lower platelet count never gives a milder grade. |
| Loader.LoadLabs | app.py:138-154 | High hematocrit iff above 54 for men and above 47 otherwise. Low leukocytes iff WBC < 4000. Low hemoglobin iff Hb < 12. All present and 0/1. |
| Loader.LoadSymptoms | app.py:131-195 | Fever is always 1. Low platelets iff < 100000. Petechiae iff < 50000. Epistaxis and gum bleeding iff < 30000. See the rule below the table for the forced flags and draws. |
| Loader.LoadSymptomsBinary | app.py:131-195 | When every draw is 0 or 1, every symptom flag is 0 or 1. |
| Loader.LoadSeverity | app.py:200-211 | NON_DBD iff negative. A positive row is graded RINGAN, SEDANG or BERAT. Platelets < 20000 give BERAT. BERAT iff platelets < 20000, or hematocrit > 50 with platelets < 50000. RINGAN iff platelets >= 100000, or platelets >= 50000 with hematocrit <= 45. SEDANG is every other positive row. |
| Loader.LoadRow | app.py:125-221 | Flags are 0/1 when the draws are. Diagnosis and severity are consistent. All three lab flags are present. |
| Loader.Load | app.py:125-225 | One case per row, in row order, with ids `CSV_` plus the 1-based row number in three digits. Identifiers are pairwise distinct. |
| Loader.LoadIdsDistinct | app.py:127 | Rows at different positions get different identifiers. |
| Loader.SeverityMonotonePlatelet | app.py:203-208 | For positive rows with equal hematocrit, a lower platelet count never gives a milder grade. |
| Loader.SeverityMonotoneHematocrit | app.py:203-208 | For positive rows with equal platelets, a higher hematocrit never gives a milder grade. |
| Loader.DrawsOnlyFillGaps | app.py:125-211 | Id, lab flags, diagnosis, severity and the platelet-driven symptoms do not depend on the random draws. |
| Pipeline.Marks | app.py:753-769 | One present 0/1 flag per checkbox, 1 iff the box is ticked. |
| Pipeline.QueryOf | app.py:753-769 | All 15 symptom keys are present as 0/1, 1 iff ticked. No lab key is present. |
| Pipeline.TotalSymptoms | app.py:772 | At most the number of boxes. 0 iff no box is ticked. |
| Pipeline.TotalSymptomsCountsOnes | app.py:772 | The symptom count equals the number of 1-flags in the query. |
| Pipeline.TopK | app.py:778-782 | For a non-empty case base: min(10, number of cases) rows, in descending score order. |
| Pipeline.TopKFromStore | app.py:778-782 | Every retrieved row is one of the per-case rows, i.e. the score of some stored case. |
| Pipeline.TopKIsBest | app.py:778-782 | The retrieved rows are the best ones: every stored case's row that is not retrieved scores at most every retrieved row. |
| Pipeline.Cbr | app.py:778-785 | For a non-empty case base the severity is always a grade, one that occurs among the retrieved cases. No vote exceeds the confidence. |
| Pipeline.LabAwareAlwaysDecidable | app.py:778-785 | With 0/1 cases and the lab-aware profile, every retrieved score is at least 26, so the vote total is never 0. |
| Pipeline.SymptomsOnlyDecidableIff | app.py:781-785 | With 0/1 cases and the symptoms-only profile, a non-empty case base gives a defined vote iff the best case scores above 0. |
| Pipeline.CbrVotesArePercentages | app.py:778-785 | With 0/1 cases, every vote is between 0 and 100 and the votes add up to 100. |
| Pipeline.CbrUnanimous | app.py:778-785 | A non-empty case base whose cases all share one diagnosis returns it with confidence 100. |
| Walkthrough.ExampleRanking | app.py:424-449 | Three cases (all symptoms, none, fever only) against an all-ticked query rank 100, 12, 0. |
| Walkthrough.ExampleVerdict | app.py:753-785 | That example gives DBD_POSITIF with votes 10000/112, 1200/112 and 0, and severity BERAT. |

Flag rules for `Converter.ConvertSymptoms`. All flags are 0/1.

- **Positive rows**, general symptoms: fever, headache, joint pain, muscle pain,
  lethargy, anorexia and retro-orbital pain are all 1.
- **Positive rows**, platelet-driven flags:
  - petechiae, rash and low platelets: iff platelets < 100000;
  - epistaxis and gum bleeding: iff < 30000;
  - nausea: iff < 70000;
  - abdominal pain: iff < 50000;
  - hepatomegaly: iff < 50000 and HCT > 45.
- **Negative rows**:
  - fever, joint pain and muscle pain: iff WBC < 5000;
  - headache: iff Hb < 12;
  - lethargy: iff Hb < 11;
  - anorexia: iff Hb < 10;
  - every other flag is 0.

Forced flags and draws for `Loader.LoadSymptoms`:

- When HCT is high and platelets are below 100000, joint pain, muscle pain,
  headache and retro-orbital pain are forced to 1. Otherwise they are the draws.
- Lethargy is 1 when Hb < 11. Otherwise it is the draw.
- Hepatomegaly is 1 when platelets < 50000 and HCT > 45. Otherwise it is the
  draw.
- Nausea, abdominal pain, rash and anorexia are always the draws.

Notes on the code as written:

- The lab-aware profile's comment says the symptom weights total 0.7. The
  listed weights actually total 0.74. With the lab weights' 0.30, the whole
  profile weighs 1.04, so the lab-aware similarity ranges from -4 to 100 rather
  than 0 to 100. The model keeps the weights as listed.
  `Similarity.LabAwareFloorReached` exhibits the -4 score.

## Left out

- User interface, file reading and progress printing (Streamlit widgets, `pd.read_csv`, `print`, `st.error`): I/O with no effect on the computed values.
- The random draws of the in-app loader: they are the `Draws` parameter, and the probabilities of `np.random.choice` are not modelled.
- `create_medical_case_base`: a randomly synthesised fallback case base, outside the modelled core.
- `get_medical_recommendations` and the result pages: text presentation.
- Floating-point rounding: scores are exact integer hundredths and votes exact rationals, so float noise in sums and comparisons is not modelled.
- Voting.Diagnose: requires a non-zero total similarity whenever rows are retrieved. The source divides by that total and would produce NaN votes when the retrieved scores sum to 0. The model states the undefined case as a precondition instead of modelling NaN.
- Ranking.Similarities, Pipeline.TopK and Pipeline.Cbr: require a non-empty case base. On an empty one the source's `sort_values('similarity')` (app.py lines 405 and 449) raises `KeyError`, because the empty DataFrame has no columns. That error is not modelled as a value. The app never passes an empty base: an empty loaded base fails its preview (app.py line 666), and the app falls back to its synthesised case base.
- Pipeline.Cbr: also carries the non-zero-total precondition of Voting.Diagnose. The lemmas `Pipeline.LabAwareAlwaysDecidable` and `Pipeline.SymptomsOnlyDecidableIff` say when it holds.
- Ranking.Sort: promises only a descending permutation. The source's `sort_values` uses an unstable sort, so the order of equal scores is unspecified.
- The `KeyError` for a diagnosis label outside the three known ones: the `Diagnosis` type has exactly three values.
- Pass-through display fields: age, gender, raw platelet, hematocrit, WBC and hemoglobin stored on each case, and `platelet`/`hematokrit` in the lab-aware result rows. No computation reads them.
- The loader's `neutrofil_tinggi` and `limfosit_tinggi` flags: stored but never read by any similarity function.
- String normalisation: `Result` is stripped and lower-cased before the comparison with "positive", and `isPositive` is the outcome of that comparison. The loader only lower-cases `Gender` before comparing it with "male" (so `"male "` counts as not male), and `isMale` is the outcome of that comparison. The converter strips `Gender` but never compares it.
- The dataset index is assumed to be the default 0-based range index, so the row number in an identifier is its position plus 1.
- Platelet and WBC counts are assumed integral; a fractional count is not representable.

=== FILE: caseids.dfy ===
/**
 * Case identifiers `CSV_<n>`: `n` in decimal, left-padded with zeros to a
 * minimum width, as Python's `f'{n:04d}'` formats a non-negative integer.
 */
module CaseIds {

  predicate IsDigit(ch: char) {
    '0' <= ch <= '9'
  }

  predicate AllDigits(s: string) {
    forall i :: 0 <= i < |s| ==> IsDigit(s[i])
  }

  function DigitChar(d: nat): (ch: char)
    requires d < 10
    ensures IsDigit(ch)
  {
    ('0' as int + d) as char
  }

  /** Decimal digits of `n`, most significant first, without leading zeros. */
  function Decimal(n: nat): (s: string)
    ensures |s| > 0 && AllDigits(s)
  {
    if n < 10 then [DigitChar(n)] else Decimal(n / 10) + [DigitChar(n % 10)]
  }

  function Zeros(k: nat): (s: string)
    ensures |s| == k && AllDigits(s)
    ensures forall i :: 0 <= i < k ==> s[i] == '0'
  {
    if k == 0 then [] else ['0'] + Zeros(k - 1)
  }

  /** `s` left-padded with zeros to at least `width` characters. */
  function ZeroPad(s: string, width: nat): (r: string)
    ensures |r| == if |s| < width then width else |s|
    ensures r[|r| - |s|..] == s
    ensures forall i :: 0 <= i < |r| - |s| ==> r[i] == '0'
    ensures AllDigits(s) ==> AllDigits(r)
  {
    if |s| < width then Zeros(width - |s|) + s else s
  }

  /** The value a digit string denotes. */
  function ParseDecimal(s: string): nat
    requires AllDigits(s)
  {
    if |s| == 0 then 0
    else 10 * ParseDecimal(s[..|s| - 1]) + (s[|s| - 1] as int - '0' as int)
  }

  /** `prefix` followed by `n` zero-padded to `width`. */
  function FormatId(prefix: string, n: nat, width: nat): (id: string)
    ensures |id| >= |prefix| + width && id[..|prefix|] == prefix
    ensures AllDigits(id[|prefix|..])
    ensures ParseDecimal(id[|prefix|..]) == n
  {
    ParsePadded(n, width);
    assert (prefix + ZeroPad(Decimal(n), width))[|prefix|..] == ZeroPad(Decimal(n), width);
    prefix + ZeroPad(Decimal(n), width)
  }

  lemma {:induction false} ParseDecimalOfDecimal(n: nat)
    ensures ParseDecimal(Decimal(n)) == n
  {
    if n >= 10 {
      ParseDecimalOfDecimal(n / 10);
      var s := Decimal(n);
      assert s[..|s| - 1] == Decimal(n / 10);
    }
  }

  /** Leading zeros do not change the value. */
  lemma {:induction false} ParseIgnoresLeadingZeros(k: nat, s: string)
    requires AllDigits(s)
    ensures ParseDecimal(Zeros(k) + s) == ParseDecimal(s)
  {
    if |s| == 0 {
      assert Zeros(k) + s == Zeros(k);
      ZerosParseToZero(k);
    } else {
      var p := s[..|s| - 1];
      ParseIgnoresLeadingZeros(k, p);
      assert (Zeros(k) + s)[..|Zeros(k) + s| - 1] == Zeros(k) + p;
    }
  }

  lemma ZerosParseToZero(k: nat)
    ensures ParseDecimal(Zeros(k)) == 0
  {
    AllZerosParseToZero(Zeros(k));
  }

  lemma {:induction false} AllZerosParseToZero(s: string)
    requires forall i :: 0 <= i < |s| ==> s[i] == '0'
    ensures AllDigits(s) && ParseDecimal(s) == 0
  {
    if |s| > 0 {
      AllZerosParseToZero(s[..|s| - 1]);
    }
  }

  /** Padding round-trips: the padded digits parse back to the number. */
  lemma ParsePadded(n: nat, width: nat)
    ensures ParseDecimal(ZeroPad(Decimal(n), width)) == n
  {
    ParseDecimalOfDecimal(n);
    if |Decimal(n)| < width {
      ParseIgnoresLeadingZeros(width - |Decimal(n)|, Decimal(n));
    }
  }

  /** Distinct numbers give distinct identifiers. */
  lemma FormatIdInjective(prefix: string, a: nat, b: nat, width: nat)
    requires FormatId(prefix, a, width) == FormatId(prefix, b, width)
    ensures a == b
  {
    var x := FormatId(prefix, a, width);
    assert ParseDecimal(x[|prefix|..]) == a;
  }
}

=== FILE: cases.dfy ===
/** The case schema: 15 canonical symptom flags, 3 lab flags, and labels. */
module Cases {
  import opened Options
  import opened Labels

  const NumSymptoms: nat := 15
  const NumLabs: nat := 3

  // Canonical symptom positions, in the order of the source's `symptom_features`.
  const DemamTinggi: nat := 0           // high fever
  const SakitKepala: nat := 1           // headache
  const NyeriSendi: nat := 2            // joint pain
  const NyeriOtot: nat := 3             // muscle pain
  const MualMuntah: nat := 4            // nausea / vomiting
  const RuamKulit: nat := 5             // rash
  const NyeriPerut: nat := 6            // abdominal pain
  const Mimisan: nat := 7               // epistaxis
  const GusiBerdarah: nat := 8          // gum bleeding
  const BintikMerah: nat := 9           // petechiae
  const LemahLesu: nat := 10            // lethargy
  const KehilanganNafsuMakan: nat := 11 // anorexia
  const NyeriBelakangMata: nat := 12    // retro-orbital pain
  const PembesaranHati: nat := 13       // hepatomegaly
  const TrombositRendah: nat := 14      // low platelet count

  // Lab flag positions, in the order of the source's `lab_features`.
  const HematokritTinggi: nat := 0      // high hematocrit
  const LeukositRendah: nat := 1        // low leukocyte count
  const HemoglobinRendah: nat := 2      // low hemoglobin

  /** The 15 symptom values of a stored case; every column is present. */
  type SymptomFlags = s: seq<int> | |s| == NumSymptoms witness seq(NumSymptoms, _ => 0)

  /** The 3 lab values of a record; `None` where the column or key is absent. */
  type LabFlags = s: seq<Option<int>> | |s| == NumLabs witness [None, None, None]

  /** The 15 symptom values of a query; `None` where the key is missing. */
  type QueryFlags = s: seq<Option<int>> | |s| == NumSymptoms witness seq(NumSymptoms, _ => None)

  /** A stored case of the case base. */
  datatype Case = Case(
    id: string,
    symptoms: SymptomFlags,
    labs: LabFlags,
    diagnosis: Diagnosis,
    severity: Severity)

  /** A new patient record to compare against the case base. */
  datatype Query = Query(symptoms: QueryFlags, labs: LabFlags)

  predicate Binary(x: int) { x == 0 || x == 1 }

  /** A condition as a 0/1 flag, as `1 if cond else 0` writes it. */
  function Flag(b: bool): int {
    if b then 1 else 0
  }

  predicate BinaryFlags(s: seq<int>) {
    forall i :: 0 <= i < |s| ==> Binary(s[i])
  }

  /** Every value that is present is 0 or 1. */
  predicate BinaryOptions(s: seq<Option<int>>) {
    forall i :: 0 <= i < |s| ==> s[i].Some? ==> Binary(s[i].value)
  }

  predicate BinaryCase(c: Case) {
    BinaryFlags(c.symptoms) && BinaryOptions(c.labs)
  }

  predicate BinaryQuery(q: Query) {
    BinaryOptions(q.symptoms) && BinaryOptions(q.labs)
  }

  /** Every value present. */
  predicate Complete(s: seq<Option<int>>) {
    forall i :: 0 <= i < |s| ==> s[i].Some?
  }

  /** Flags seen as a record in which every key is present. */
  function Present(s: seq<int>): (r: seq<Option<int>>)
    ensures |r| == |s| && Complete(r)
    ensures forall i :: 0 <= i < |s| ==> r[i] == Some(s[i])
  {
    seq(|s|, i requires 0 <= i < |s| => Some(s[i]))
  }

  /** A query record whose missing keys read as 0. */
  function Defaulted(s: seq<Option<int>>): (r: seq<Option<int>>)
    ensures |r| == |s| && Complete(r)
    ensures forall i :: 0 <= i < |s| ==> r[i] == Some(s[i].GetOr(0))
  {
    seq(|s|, i requires 0 <= i < |s| => Some(s[i].GetOr(0)))
  }

  /** A stored case presented as a query with every key filled in. */
  function AsQuery(c: Case): Query {
    Query(Present(c.symptoms), c.labs)
  }

  /** Number of entries equal to 1 among those present. */
  function CountOnes(s: seq<Option<int>>): (n: nat)
    ensures n <= |s|
  {
    if |s| == 0 then 0
    else (if s[0] == Some(1) then 1 else 0) + CountOnes(s[1..])
  }

  /** Cases whose identifiers are pairwise distinct. */
  predicate DistinctIds(cs: seq<Case>) {
    forall i, j :: 0 <= i < j < |cs| ==> cs[i].id != cs[j].id
  }
}

=== FILE: converter.dfy ===
/**
 * `convert_csv_to_embedded_json`: the deterministic mapping from dataset
 * rows to stored cases, deriving the 15 symptom flags and a severity grade
 * from the lab values with fixed thresholds.
 */
module Converter {
  import opened Options
  import opened Labels
  import opened Cases
  import opened CaseIds
  import opened Rows

  /** The severity grade, following the source's branches on the platelet count. */
  function ConvertSeverity(row: RawRow): (s: Severity)
    ensures !row.isPositive <==> s == NonDbd
    ensures row.isPositive ==> (s == Berat <==> row.platelet < 20000)
    ensures row.isPositive ==> (s == Sedang <==> 20000 <= row.platelet < 70000)
    ensures row.isPositive ==> (s == Ringan <==> row.platelet >= 70000)
  {
    if row.isPositive then
      if row.platelet < 50000 then (if row.platelet < 20000 then Berat else Sedang)
      else if row.platelet < 100000 then (if row.platelet < 70000 then Sedang else Ringan)
      else Ringan
    else NonDbd
  }

  /** Flags of a positive row: general symptoms always, bleeding signs by platelet count. */
  function PositiveSymptoms(p: int, hct: real): (s: SymptomFlags)
    ensures BinaryFlags(s)
    ensures && s[DemamTinggi] == 1 && s[SakitKepala] == 1 && s[NyeriSendi] == 1 && s[NyeriOtot] == 1
            && s[LemahLesu] == 1 && s[KehilanganNafsuMakan] == 1 && s[NyeriBelakangMata] == 1
    ensures s[TrombositRendah] == 1 <==> p < 100000
    ensures s[BintikMerah] == 1 <==> p < 100000
    ensures s[RuamKulit] == 1 <==> p < 100000
    ensures s[Mimisan] == 1 <==> p < 30000
    ensures s[GusiBerdarah] == 1 <==> p < 30000
    ensures s[MualMuntah] == 1 <==> p < 70000
    ensures s[NyeriPerut] == 1 <==> p < 50000
    ensures s[PembesaranHati] == 1 <==> p < 50000 && hct > 45.0
  {
    if p < 50000 then
      //   demam kepala sendi otot mual ruam perut mimisan gusi bintik lemah nafsu mata hati trombosit
      [1, 1, 1, 1, 1, 1, 1, Flag(p < 30000), Flag(p < 30000), 1, 1, 1, 1, Flag(hct > 45.0), 1]
    else if p < 100000 then
      [1, 1, 1, 1, Flag(p < 70000), 1, 0, 0, 0, 1, 1, 1, 1, 0, 1]
    else
      [1, 1, 1, 1, 0, 0, 0, 0, 0, 0, 1, 1, 1, 0, 0]
  }

  /** Flags of a negative row: general symptoms from the white-cell count and hemoglobin, no bleeding signs. */
  function NegativeSymptoms(wbc: int, hb: real): (s: SymptomFlags)
    ensures BinaryFlags(s)
    ensures && (s[DemamTinggi] == 1 <==> wbc < 5000)
            && (s[NyeriSendi] == 1 <==> wbc < 5000)
            && (s[NyeriOtot] == 1 <==> wbc < 5000)
            && (s[SakitKepala] == 1 <==> hb < 12.0)
            && (s[LemahLesu] == 1 <==> hb < 11.0)
            && (s[KehilanganNafsuMakan] == 1 <==> hb < 10.0)
    ensures forall i :: 0 <= i < NumSymptoms && i !in {DemamTinggi, NyeriSendi, NyeriOtot, SakitKepala, LemahLesu, KehilanganNafsuMakan} ==>
      s[i] == 0
  {
    var fever := Flag(wbc < 5000);
    [fever, Flag(hb < 12.0), fever, fever, 0, 0, 0, 0, 0, 0, Flag(hb < 11.0), Flag(hb < 10.0), 0, 0, 0]
  }

  /** The 15 symptom flags, following the source's branches. */
  function ConvertSymptoms(row: RawRow): (s: SymptomFlags)
    ensures BinaryFlags(s)
    // Positive cases always carry the general symptoms.
    ensures row.isPositive ==>
      && s[DemamTinggi] == 1 && s[SakitKepala] == 1 && s[NyeriSendi] == 1 && s[NyeriOtot] == 1
      && s[LemahLesu] == 1 && s[KehilanganNafsuMakan] == 1 && s[NyeriBelakangMata] == 1
    // Platelet-driven flags.
    ensures s[TrombositRendah] == 1 <==> row.isPositive && row.platelet < 100000
    ensures s[BintikMerah] == 1 <==> row.isPositive && row.platelet < 100000
    ensures s[RuamKulit] == 1 <==> row.isPositive && row.platelet < 100000
    ensures s[Mimisan] == 1 <==> row.isPositive && row.platelet < 30000
    ensures s[GusiBerdarah] == 1 <==> row.isPositive && row.platelet < 30000
    ensures s[MualMuntah] == 1 <==> row.isPositive && row.platelet < 70000
    ensures s[NyeriPerut] == 1 <==> row.isPositive && row.platelet < 50000
    ensures s[PembesaranHati] == 1 <==> row.isPositive && row.platelet < 50000 && row.hct > 45.0
    // Negative cases: general symptoms from the white-cell count and hemoglobin.
    ensures !row.isPositive ==>
      && (s[DemamTinggi] == 1 <==> row.wbc < 5000)
      && (s[NyeriSendi] == 1 <==> row.wbc < 5000)
      && (s[NyeriOtot] == 1 <==> row.wbc < 5000)
      && (s[SakitKepala] == 1 <==> row.hb < 12.0)
      && (s[LemahLesu] == 1 <==> row.hb < 11.0)
      && (s[KehilanganNafsuMakan] == 1 <==> row.hb < 10.0)
      && s[NyeriBelakangMata] == 0
  {
    if row.isPositive then PositiveSymptoms(row.platelet, row.hct)
    else NegativeSymptoms(row.wbc, row.hb)
  }

  /** Identifier of the row at position `idx`: `CSV_` and `idx + 1` padded to four digits. */
  function ConvertId(idx: nat): string {
    FormatId("CSV_", idx + 1, 4)
  }

  /** One converted case. */
  function ConvertRow(idx: nat, row: RawRow): (c: Case)
    ensures BinaryCase(c)
    ensures Consistent(c.diagnosis, c.severity)
    ensures c.severity == NonDbd <==> c.diagnosis == BukanDbd
    ensures forall j :: 0 <= j < NumLabs ==> c.labs[j].None?
  {
    Case(ConvertId(idx), ConvertSymptoms(row), [None, None, None], RowDiagnosis(row), ConvertSeverity(row))
  }

  /** The whole dataset: one case per row, in row order, with distinct identifiers. */
  function Convert(rows: seq<RawRow>): (cs: seq<Case>)
    ensures |cs| == |rows|
    ensures forall i :: 0 <= i < |rows| ==> cs[i].id == ConvertId(i)
    ensures forall i :: 0 <= i < |rows| ==>
      cs[i].symptoms == ConvertSymptoms(rows[i]) && cs[i].diagnosis == RowDiagnosis(rows[i])
      && cs[i].severity == ConvertSeverity(rows[i])
    ensures DistinctIds(cs)
  {
    ConvertIdsDistinct(|rows|);
    seq(|rows|, i requires 0 <= i < |rows| => ConvertRow(i, rows[i]))
  }

  /** Rows at different positions get different identifiers. */
  lemma ConvertIdsDistinct(n: nat)
    ensures forall i, j :: 0 <= i < j < n ==> ConvertId(i) != ConvertId(j)
  {
    forall i, j | 0 <= i < j < n ensures ConvertId(i) != ConvertId(j) {
      assert ParseDecimal(ConvertId(i)[4..]) == i + 1;
    }
  }

  /** For positive rows, a lower platelet count never gives a milder grade. */
  lemma SeverityMonotone(a: RawRow, b: RawRow)
    requires a.isPositive && b.isPositive && a.platelet <= b.platelet
    ensures Gravity(ConvertSeverity(a)) >= Gravity(ConvertSeverity(b))
  {
  }
}

=== FILE: example.dfy ===
/**
 * A worked example of the diagnose action under the symptoms-only profile:
 * three stored cases, every checkbox ticked.
 */
module Walkthrough {
  import opened Options
  import opened Labels
  import opened Cases
  import opened Similarity
  import opened Ranking
  import opened Voting
  import opened Pipeline

  const AllOnes: SymptomFlags := seq(NumSymptoms, _ => 1)
  const AllZeros: SymptomFlags := seq(NumSymptoms, _ => 0)
  const FeverOnly: SymptomFlags := AllZeros[DemamTinggi := 1]
  const NoLabs: LabFlags := [None, None, None]

  /** Severe dengue with every symptom, a non-dengue case with none, a suspect with fever only. */
  const Severe := Case("A", AllOnes, NoLabs, DbdPositif, Berat)
  const Healthy := Case("B", AllZeros, NoLabs, BukanDbd, NonDbd)
  const Suspect := Case("C", FeverOnly, NoLabs, SuspekDbd, Observasi)
  const Store := [Severe, Healthy, Suspect]

  const AllChecked: seq<bool> := seq(NumSymptoms, _ => true)

  /** The severe case matches every ticked box: 100. */
  lemma SevereScore()
    ensures SymptomsOnlyScore(QueryOf(AllChecked), Severe).score == 100
  {
    assert QueryOf(AllChecked) == AsQuery(Severe);
    SelfSimilarity(Severe);
  }

  /** The case with no symptoms misses every ticked box: 0. */
  lemma HealthyScore()
    ensures SymptomsOnlyScore(QueryOf(AllChecked), Healthy).score == 0
  {
    NoSymptomScore(Healthy);
  }

  /** Clearing high fever in the suspect leaves no symptom at all. */
  lemma SuspectWithoutFever()
    ensures Suspect.symptoms[DemamTinggi := 1 - Suspect.symptoms[DemamTinggi]] == AllZeros
  {
    assert forall i :: 0 <= i < NumSymptoms ==> FeverOnly[DemamTinggi := 0][i] == AllZeros[i];
  }

  /** A case with no symptom misses every ticked box: 0. */
  lemma NoSymptomScore(c: Case)
    requires c.symptoms == AllZeros && c.labs == NoLabs
    ensures SymptomsOnlyScore(QueryOf(AllChecked), c).score == 0
  {
    var q := QueryOf(AllChecked);
    WeightTables();
    SymptomsOnlyIsMismatch(q, c);
    MismatchAll(SymptomWeights, Defaulted(q.symptoms), Present(AllZeros), NumSymptoms);
  }

  /** The suspect matches only high fever: its weight, 12. */
  lemma SuspectScore()
    ensures SymptomsOnlyScore(QueryOf(AllChecked), Suspect).score == 12
  {
    SuspectWithoutFever();
    NoSymptomScore(Suspect.(symptoms := AllZeros));
    MismatchCostsWeight(QueryOf(AllChecked), Suspect, DemamTinggi);
  }

  /** The rows before sorting, in case-base order. */
  lemma UnsortedRows()
    ensures ScoreAll(QueryOf(AllChecked), Store, false) == [
      SymptomsOnlyScore(QueryOf(AllChecked), Severe),
      SymptomsOnlyScore(QueryOf(AllChecked), Healthy),
      SymptomsOnlyScore(QueryOf(AllChecked), Suspect)]
  {
  }

  /** Three rows with distinct scores, the first highest and the second lowest, sort as first, third, second. */
  lemma SortThree(a: Scored, b: Scored, c: Scored)
    requires a.score >= c.score > b.score
    ensures Sort([a, b, c]) == [a, c, b]
  {
    assert [a, b, c][1..] == [b, c];
    assert [b, c][1..] == [c];
    assert [c][1..] == [];
    assert Sort([c]) == [c];
    assert Sort([b, c]) == Insert(b, [c]) == [c, b];
  }

  /** The ranking puts the severe case first, the suspect second, the non-dengue case last. */
  lemma ExampleRanking()
    ensures TopK(AllChecked, Store, false) == [
      SymptomsOnlyScore(QueryOf(AllChecked), Severe),
      SymptomsOnlyScore(QueryOf(AllChecked), Suspect),
      SymptomsOnlyScore(QueryOf(AllChecked), Healthy)]
  {
    var q := QueryOf(AllChecked);
    var a := SymptomsOnlyScore(q, Severe);
    var b := SymptomsOnlyScore(q, Healthy);
    var c := SymptomsOnlyScore(q, Suspect);
    SevereScore();
    HealthyScore();
    SuspectScore();
    UnsortedRows();
    SortThree(a, b, c);
    assert Similarities(q, Store, false) == [a, c, b];
  }

  /** The verdict: DBD_POSITIF with 100 of the 112 points of similarity, and severity BERAT. */
  lemma ExampleVerdict()
    ensures Decidable(TopK(AllChecked, Store, false))
    ensures Cbr(AllChecked, Store, false).diagnosis == DbdPositif
    ensures Cbr(AllChecked, Store, false).confidence == 10000.0 / 112.0
    ensures Cbr(AllChecked, Store, false).votes == Tally(10000.0 / 112.0, 1200.0 / 112.0, 0.0)
    ensures Cbr(AllChecked, Store, false).severity == Graded(Berat)
  {
    ExampleRanking();
    SevereScore();
    HealthyScore();
    SuspectScore();
    var q := QueryOf(AllChecked);
    var top := TopK(AllChecked, Store, false);
    ThreeRowVotes(top);
    ThreeRowSeverity(top);
  }

  /** The running sums after one more row. */
  lemma Snoc(es: seq<Scored>, e: Scored)
    ensures TotalScore(es + [e]) == TotalScore(es) + e.score
    ensures forall d :: ScoreFor(es + [e], d) == ScoreFor(es, d) + (if e.diagnosis == d then e.score else 0)
    ensures forall s :: SeverityScore(es + [e], s) == SeverityScore(es, s) + (if e.severity == s then e.score else 0)
  {
    assert (es + [e])[..|es|] == es;
  }

  /** Rows scored 100 (DBD, BERAT), 12 (suspect, OBSERVASI) and 0 (non-dengue). */
  predicate ExampleRows(top: seq<Scored>) {
    && |top| == 3
    && top[0].score == 100 && top[0].diagnosis == DbdPositif && top[0].severity == Berat
    && top[1].score == 12 && top[1].diagnosis == SuspekDbd && top[1].severity == Observasi
    && top[2].score == 0 && top[2].diagnosis == BukanDbd && top[2].severity == NonDbd
  }

  /** The per-label sums over those rows. */
  lemma ThreeRowSums(top: seq<Scored>)
    requires ExampleRows(top)
    ensures TotalScore(top) == 112
    ensures ScoreFor(top, DbdPositif) == 100 && ScoreFor(top, SuspekDbd) == 12 && ScoreFor(top, BukanDbd) == 0
    ensures SeverityScore(top, Berat) == 100 && SeverityScore(top, Observasi) == 12
    ensures SeverityScore(top, NonDbd) == 0
  {
    var a, c, b := top[0], top[1], top[2];
    assert [a] == [] + [a] && [a, c] == [a] + [c] && top == [a, c] + [b];
    Snoc([], a);
    Snoc([a], c);
    Snoc([a, c], b);
  }

  /** The diagnosis votes over those rows. */
  lemma ThreeRowVotes(top: seq<Scored>)
    requires ExampleRows(top)
    ensures Decidable(top)
    ensures Diagnose(top).votes == Tally(10000.0 / 112.0, 1200.0 / 112.0, 0.0)
    ensures Diagnose(top).diagnosis == DbdPositif
    ensures Diagnose(top).confidence == 10000.0 / 112.0
  {
    ThreeRowSums(top);
    assert DiagnosisShare(top, DbdPositif) == 100.0 * 100.0 / 112.0;
    assert DiagnosisShare(top, SuspekDbd) == 100.0 * 12.0 / 112.0;
    assert DiagnosisShare(top, BukanDbd) == 100.0 * 0.0 / 112.0;
    var v := Diagnose(top);
    assert v.votes.Get(DbdPositif) == 10000.0 / 112.0;
    assert v.votes.Get(SuspekDbd) == 1200.0 / 112.0;
    assert v.votes.Get(BukanDbd) == 0.0;
  }

  /** The severity over those rows. */
  lemma ThreeRowSeverity(top: seq<Scored>)
    requires ExampleRows(top)
    ensures Decidable(top)
    ensures FinalSeverity(top) == Graded(Berat)
  {
    ThreeRowSums(top);
    var ks := Severities(top);
    var g := FinalSeverity(top).grade;
    SeenIff(ks, g);
    SeenIff(ks, Berat);
    assert ks[0] == Berat;
    assert SeverityShare(top, Berat) == 100.0 / 112.0;
    assert SeverityShare(top, Observasi) == 12.0 / 112.0;
    assert SeverityShare(top, NonDbd) == 0.0 / 112.0;
    assert SeverityShare(top, g) >= SeverityShare(top, Berat);
  }
}

=== FILE: labels.dfy ===
/** The closed label sets of the case base: diagnoses and severity grades. */
module Labels {

  /** Dengue verdicts, in the order the source declares its vote map. */
  datatype Diagnosis = DbdPositif | SuspekDbd | BukanDbd

  /** Severity grades carried by a stored case. */
  datatype Severity = Ringan | Sedang | Berat | Observasi | NonDbd

  /** The severity of a verdict: a stored grade, or UNKNOWN when nothing was retrieved. */
  datatype SeverityVerdict = Graded(grade: Severity) | Unknown

  /** Insertion order of the diagnosis vote map; the argmax breaks ties towards the front. */
  const DiagnosisOrder: seq<Diagnosis> := [DbdPositif, SuspekDbd, BukanDbd]

  /** Position of a diagnosis in `DiagnosisOrder`. */
  function Priority(d: Diagnosis): (p: nat)
    ensures p < |DiagnosisOrder| && DiagnosisOrder[p] == d
  {
    match d
    case DbdPositif => 0
    case SuspekDbd => 1
    case BukanDbd => 2
  }

  /** How grave a dengue grade is; non-dengue grades are 0. */
  function Gravity(s: Severity): nat {
    match s
    case Ringan => 1
    case Sedang => 2
    case Berat => 3
    case _ => 0
  }

  /** The pairing every case generator keeps between diagnosis and severity. */
  predicate Consistent(d: Diagnosis, s: Severity) {
    match d
    case DbdPositif => s == Ringan || s == Sedang || s == Berat
    case SuspekDbd => s == Observasi
    case BukanDbd => s == NonDbd
  }
}

=== FILE: loader.dfy ===
/**
 * The deterministic part of `load_csv_case_base`: lab flags, platelet-driven
 * bleeding signs, the severity grade and the identifier of each loaded case.
 * The source fills the remaining symptom flags by random draws; here those
 * draws are an explicit parameter.
 */
module Loader {
  import opened Options
  import opened Labels
  import opened Cases
  import opened CaseIds
  import opened Rows

  /** The values the random fallbacks produced for one row. */
  datatype Draws = Draws(
    nyeriSendi: int, nyeriOtot: int, sakitKepala: int, nyeriBelakangMata: int,
    lemahLesu: int, mualMuntah: int, nyeriPerut: int, ruamKulit: int,
    kehilanganNafsuMakan: int, pembesaranHati: int)

  /** Draws from `choice([0, 1])` are always 0 or 1. */
  predicate BinaryDraws(d: Draws) {
    && Binary(d.nyeriSendi) && Binary(d.nyeriOtot) && Binary(d.sakitKepala)
    && Binary(d.nyeriBelakangMata) && Binary(d.lemahLesu) && Binary(d.mualMuntah)
    && Binary(d.nyeriPerut) && Binary(d.ruamKulit) && Binary(d.kehilanganNafsuMakan)
    && Binary(d.pembesaranHati)
  }

  /** Hemoconcentration: above 54% for men, above 47% otherwise. */
  predicate HematocritHigh(row: RawRow) {
    if row.isMale then row.hct > 54.0 else row.hct > 47.0
  }

  /** The three lab flags, always present. */
  function LoadLabs(row: RawRow): (l: LabFlags)
    ensures Complete(l) && BinaryOptions(l)
    ensures l[HematokritTinggi] == Some(1) <==> HematocritHigh(row)
    ensures l[LeukositRendah] == Some(1) <==> row.wbc < 4000
    ensures l[HemoglobinRendah] == Some(1) <==> row.hb < 12.0
  {
    [Some(Flag(HematocritHigh(row))), Some(Flag(row.wbc < 4000)), Some(Flag(row.hb < 12.0))]
  }

  /**
   * The classic dengue picture: high hematocrit together with a low platelet
   * count forces the four pain symptoms on.
   */
  predicate ClassicPicture(row: RawRow) {
    HematocritHigh(row) && row.platelet < 100000
  }

  /** The 15 symptom flags; flags the lab values do not force come from `d`. */
  function LoadSymptoms(row: RawRow, d: Draws): (s: SymptomFlags)
    // Deterministic flags.
    ensures s[DemamTinggi] == 1
    ensures s[TrombositRendah] == 1 <==> row.platelet < 100000
    ensures s[BintikMerah] == 1 <==> row.platelet < 50000
    ensures s[Mimisan] == 1 <==> row.platelet < 30000
    ensures s[GusiBerdarah] == 1 <==> row.platelet < 30000
    ensures s[Mimisan] == s[GusiBerdarah]
    // Forced flags, and the draw everywhere else.
    ensures ClassicPicture(row) ==>
      s[NyeriSendi] == 1 && s[NyeriOtot] == 1 && s[SakitKepala] == 1 && s[NyeriBelakangMata] == 1
    ensures !ClassicPicture(row) ==>
      && s[NyeriSendi] == d.nyeriSendi && s[NyeriOtot] == d.nyeriOtot
      && s[SakitKepala] == d.sakitKepala && s[NyeriBelakangMata] == d.nyeriBelakangMata
    ensures s[LemahLesu] == (if row.hb < 11.0 then 1 else d.lemahLesu)
    ensures s[PembesaranHati] == (if row.platelet < 50000 && row.hct > 45.0 then 1 else d.pembesaranHati)
    ensures s[MualMuntah] == d.mualMuntah && s[NyeriPerut] == d.nyeriPerut
    ensures s[RuamKulit] == d.ruamKulit && s[KehilanganNafsuMakan] == d.kehilanganNafsuMakan
  {
    var p := row.platelet;
    var classic := ClassicPicture(row);
    [ 1,                                                     // demam_tinggi
      if classic then 1 else d.sakitKepala,                  // sakit_kepala
      if classic then 1 else d.nyeriSendi,                   // nyeri_sendi
      if classic then 1 else d.nyeriOtot,                    // nyeri_otot
      d.mualMuntah,                                          // mual_muntah
      d.ruamKulit,                                           // ruam_kulit
      d.nyeriPerut,                                          // nyeri_perut
      Flag(p < 30000),                                       // mimisan
      Flag(p < 30000),                                       // gusi_berdarah
      Flag(p < 50000),                                       // bintik_merah
      if row.hb < 11.0 then 1 else d.lemahLesu,              // lemah_lesu
      d.kehilanganNafsuMakan,                                // kehilangan_nafsu_makan
      if classic then 1 else d.nyeriBelakangMata,            // nyeri_belakang_mata
      if p < 50000 && row.hct > 45.0 then 1 else d.pembesaranHati, // pembesaran_hati
      Flag(p < 100000) ]                                     // trombosit_rendah
  }

  /** With 0/1 draws every symptom flag is 0/1. */
  lemma LoadSymptomsBinary(row: RawRow, d: Draws)
    ensures BinaryDraws(d) ==> BinaryFlags(LoadSymptoms(row, d))
  {
    var s := LoadSymptoms(row, d);
    if BinaryDraws(d) {
      assert forall i :: 0 <= i < NumSymptoms ==> Binary(s[i]) by {
        assert Binary(s[DemamTinggi]) && Binary(s[SakitKepala]) && Binary(s[NyeriSendi]) && Binary(s[NyeriOtot]);
        assert Binary(s[MualMuntah]) && Binary(s[RuamKulit]) && Binary(s[NyeriPerut]) && Binary(s[Mimisan]);
        assert Binary(s[GusiBerdarah]) && Binary(s[BintikMerah]) && Binary(s[LemahLesu]);
        assert Binary(s[KehilanganNafsuMakan]) && Binary(s[NyeriBelakangMata]) && Binary(s[PembesaranHati]);
        assert Binary(s[TrombositRendah]);
      }
    }
  }

  /** The severity grade from the platelet count and the hematocrit. */
  function LoadSeverity(row: RawRow): (s: Severity)
    ensures !row.isPositive <==> s == NonDbd
    ensures row.isPositive ==> s in {Ringan, Sedang, Berat}
    ensures row.isPositive && row.platelet < 20000 ==> s == Berat
    ensures row.isPositive && row.platelet >= 100000 ==> s == Ringan
    ensures s == Berat ==> row.platelet < 50000
    ensures s == Sedang ==> row.platelet < 100000
    ensures row.isPositive && row.platelet < 50000 ==> s != Ringan
    ensures row.isPositive ==>
      (s == Berat <==> row.platelet < 20000 || (row.hct > 50.0 && row.platelet < 50000))
    ensures row.isPositive ==>
      (s == Ringan <==> row.platelet >= 100000 || (row.platelet >= 50000 && row.hct <= 45.0))
  {
    if row.isPositive then
      if row.platelet < 20000 || (row.hct > 50.0 && row.platelet < 50000) then Berat
      else if row.platelet < 50000 || (row.hct > 45.0 && row.platelet < 100000) then Sedang
      else Ringan
    else NonDbd
  }

  /** Identifier of the row at position `idx`: `CSV_` and `idx + 1` padded to three digits. */
  function LoadId(idx: nat): string {
    FormatId("CSV_", idx + 1, 3)
  }

  /** One loaded case. */
  function LoadRow(idx: nat, row: RawRow, d: Draws): (c: Case)
    ensures BinaryDraws(d) ==> BinaryCase(c)
    ensures Consistent(c.diagnosis, c.severity)
    ensures forall j :: 0 <= j < NumLabs ==> c.labs[j].Some?
  {
    LoadSymptomsBinary(row, d);
    Case(LoadId(idx), LoadSymptoms(row, d), LoadLabs(row), RowDiagnosis(row), LoadSeverity(row))
  }

  /** The case base: one case per row, in row order, with distinct identifiers. */
  function Load(rows: seq<RawRow>, draws: seq<Draws>): (cs: seq<Case>)
    requires |draws| == |rows|
    ensures |cs| == |rows|
    ensures forall i :: 0 <= i < |rows| ==> cs[i].id == LoadId(i)
    ensures forall i :: 0 <= i < |rows| ==>
      cs[i].symptoms == LoadSymptoms(rows[i], draws[i]) && cs[i].labs == LoadLabs(rows[i])
      && cs[i].diagnosis == RowDiagnosis(rows[i]) && cs[i].severity == LoadSeverity(rows[i])
    ensures DistinctIds(cs)
  {
    LoadIdsDistinct(|rows|);
    seq(|rows|, i requires 0 <= i < |rows| => LoadRow(i, rows[i], draws[i]))
  }

  /** Rows at different positions get different identifiers. */
  lemma LoadIdsDistinct(n: nat)
    ensures forall i, j :: 0 <= i < j < n ==> LoadId(i) != LoadId(j)
  {
    forall i, j | 0 <= i < j < n ensures LoadId(i) != LoadId(j) {
      assert ParseDecimal(LoadId(i)[4..]) == i + 1;
    }
  }

  /** For positive rows, a lower platelet count never gives a milder grade. */
  lemma SeverityMonotonePlatelet(a: RawRow, b: RawRow)
    requires a.isPositive && b.isPositive && a.hct == b.hct && a.platelet <= b.platelet
    ensures Gravity(LoadSeverity(a)) >= Gravity(LoadSeverity(b))
  {
  }

  /** For positive rows, a higher hematocrit never gives a milder grade. */
  lemma SeverityMonotoneHematocrit(a: RawRow, b: RawRow)
    requires a.isPositive && b.isPositive && a.platelet == b.platelet && a.hct >= b.hct
    ensures Gravity(LoadSeverity(a)) >= Gravity(LoadSeverity(b))
  {
  }

  /**
   * The draws reach only the flags the lab values leave open: the
   * identifier, lab flags, diagnosis, severity and the platelet-driven
   * symptoms of a loaded case do not depend on them.
   */
  lemma DrawsOnlyFillGaps(idx: nat, row: RawRow, d1: Draws, d2: Draws)
    ensures LoadRow(idx, row, d1).id == LoadRow(idx, row, d2).id
    ensures LoadRow(idx, row, d1).labs == LoadRow(idx, row, d2).labs
    ensures LoadRow(idx, row, d1).diagnosis == LoadRow(idx, row, d2).diagnosis
    ensures LoadRow(idx, row, d1).severity == LoadRow(idx, row, d2).severity
    ensures forall i :: i in {DemamTinggi, Mimisan, GusiBerdarah, BintikMerah, TrombositRendah} ==>
      LoadRow(idx, row, d1).symptoms[i] == LoadRow(idx, row, d2).symptoms[i]
  {
  }
}

=== FILE: options.dfy ===
/** A value that may be absent: a key missing from a record. */
module Options {

  datatype Option<+T> = None | Some(value: T) {

    /** The carried value, or `default` when absent. */
    function GetOr(default: T): T {
      match this
      case Some(v) => v
      case None => default
    }
  }
}

=== FILE: pipeline.dfy ===
/**
 * The diagnose action: a query built from the symptom checkboxes, scored
 * against the case base under the chosen profile, the top K retrieved, and
 * the weighted vote taken over them.
 */
module Pipeline {
  import opened Options
  import opened Labels
  import opened Cases
  import opened Similarity
  import opened Ranking
  import opened Voting

  /** Number of cases the diagnose action retrieves. */
  const K: int := 10

  /** Checkbox states as 0/1 flags; every key present. */
  function Marks(checks: seq<bool>): (s: seq<Option<int>>)
    ensures |s| == |checks| && Complete(s) && BinaryOptions(s)
    ensures forall i :: 0 <= i < |checks| ==> (s[i] == Some(1) <==> checks[i])
  {
    seq(|checks|, i requires 0 <= i < |checks| => Some(Flag(checks[i])))
  }

  /** The query dictionary: all 15 symptom keys present, no lab keys. */
  function QueryOf(checks: seq<bool>): (q: Query)
    requires |checks| == NumSymptoms
    ensures BinaryQuery(q) && Complete(q.symptoms)
    ensures forall i :: 0 <= i < NumSymptoms ==> (q.symptoms[i] == Some(1) <==> checks[i])
    ensures forall j :: 0 <= j < NumLabs ==> q.labs[j].None?
  {
    Query(Marks(checks), [None, None, None])
  }

  /** `total_symptoms`: the number of ticked checkboxes. */
  function TotalSymptoms(checks: seq<bool>): (n: nat)
    ensures n <= |checks|
    ensures n == 0 <==> forall i :: 0 <= i < |checks| ==> !checks[i]
  {
    if |checks| == 0 then 0
    else (if checks[0] then 1 else 0) + TotalSymptoms(checks[1..])
  }

  /** The symptom count equals the number of 1-flags in the query built from the same boxes. */
  lemma {:induction false} TotalSymptomsCountsOnes(checks: seq<bool>)
    ensures TotalSymptoms(checks) == CountOnes(Marks(checks))
  {
    if |checks| > 0 {
      TotalSymptomsCountsOnes(checks[1..]);
      assert Marks(checks)[1..] == Marks(checks[1..]);
    }
  }

  /** The retrieved rows: the first K of the ranking. */
  function TopK(checks: seq<bool>, store: seq<Case>, labAware: bool): (r: seq<Scored>)
    requires |checks| == NumSymptoms && |store| > 0
    ensures |r| == if |store| < K then |store| else K
    ensures SortedDesc(r)
  {
    Retrieve(Similarities(QueryOf(checks), store, labAware), K)
  }

  /** Every retrieved row is the row of some stored case. */
  lemma TopKFromStore(checks: seq<bool>, store: seq<Case>, labAware: bool)
    requires |checks| == NumSymptoms && |store| > 0
    ensures forall i :: 0 <= i < |TopK(checks, store, labAware)| ==>
      TopK(checks, store, labAware)[i] in ScoreAll(QueryOf(checks), store, labAware)
  {
    var ranked := Similarities(QueryOf(checks), store, labAware);
    var top := TopK(checks, store, labAware);
    SimilaritiesCoverStore(QueryOf(checks), store, labAware);
    assert forall i :: 0 <= i < |top| ==> top[i] == ranked[i];
  }

  /** The retrieved rows are the best ones: every per-case row left out scores no higher than any retrieved row. */
  lemma TopKIsBest(checks: seq<bool>, store: seq<Case>, labAware: bool)
    requires |checks| == NumSymptoms && |store| > 0
    ensures forall i, j ::
      (0 <= i < |TopK(checks, store, labAware)| && 0 <= j < |store| &&
       ScoreAll(QueryOf(checks), store, labAware)[j] !in TopK(checks, store, labAware)) ==>
      TopK(checks, store, labAware)[i].score >= ScoreAll(QueryOf(checks), store, labAware)[j].score
  {
    var all := ScoreAll(QueryOf(checks), store, labAware);
    var ranked := Similarities(QueryOf(checks), store, labAware);
    var r := TopK(checks, store, labAware);
    PermutationCovers(ranked, all);
    forall i, j | 0 <= i < |r| && 0 <= j < |store| && all[j] !in r ensures r[i].score >= all[j].score {
      var k :| 0 <= k < |ranked| && ranked[k] == all[j];
      assert k >= |r|;
    }
  }

  /** The whole diagnose action; a non-empty case base always yields a graded severity. */
  function Cbr(checks: seq<bool>, store: seq<Case>, labAware: bool): (v: Verdict)
    requires |checks| == NumSymptoms && |store| > 0
    requires Decidable(TopK(checks, store, labAware))
    ensures v.severity.Graded?
    ensures Seen(Severities(TopK(checks, store, labAware)), v.severity.grade)
    ensures forall d :: v.votes.Get(d) <= v.confidence
  {
    Diagnose(TopK(checks, store, labAware))
  }

  /** Every row scores at least `lo` when every stored case does. */
  lemma TopKScoresAtLeast(checks: seq<bool>, store: seq<Case>, labAware: bool, lo: int)
    requires |checks| == NumSymptoms && |store| > 0
    requires forall j :: 0 <= j < |store| ==> ScoreAll(QueryOf(checks), store, labAware)[j].score >= lo
    ensures forall i :: 0 <= i < |TopK(checks, store, labAware)| ==> TopK(checks, store, labAware)[i].score >= lo
  {
    var all := ScoreAll(QueryOf(checks), store, labAware);
    var top := TopK(checks, store, labAware);
    TopKFromStore(checks, store, labAware);
    forall i | 0 <= i < |top| ensures top[i].score >= lo {
      var j :| 0 <= j < |all| && all[j] == top[i];
    }
  }

  /**
   * Under the lab-aware profile a checkbox query carries no lab keys, so
   * every binary case scores at least 26 and voting is always defined.
   */
  lemma LabAwareAlwaysDecidable(checks: seq<bool>, store: seq<Case>)
    requires |checks| == NumSymptoms && |store| > 0
    requires forall j :: 0 <= j < |store| ==> BinaryCase(store[j])
    ensures Decidable(TopK(checks, store, true))
    ensures forall i :: 0 <= i < |TopK(checks, store, true)| ==> TopK(checks, store, true)[i].score >= 26
  {
    var q := QueryOf(checks);
    var top := TopK(checks, store, true);
    forall j | 0 <= j < |store| ensures ScoreAll(q, store, true)[j].score >= 26 {
      assert ScoreAll(q, store, true)[j] == LabAwareScore(q, store[j]);
    }
    TopKScoresAtLeast(checks, store, true, 26);
    TotalAtLeast(top, 26);
  }

  /**
   * Under the symptoms-only profile voting is defined exactly when the
   * best case scores above 0.
   */
  lemma SymptomsOnlyDecidableIff(checks: seq<bool>, store: seq<Case>)
    requires |checks| == NumSymptoms && |store| > 0
    requires forall j :: 0 <= j < |store| ==> BinaryCase(store[j])
    ensures Decidable(TopK(checks, store, false)) <==>
      Similarities(QueryOf(checks), store, false)[0].score > 0
  {
    var q := QueryOf(checks);
    var top := TopK(checks, store, false);
    forall j | 0 <= j < |store| ensures ScoreAll(q, store, false)[j].score >= 0 {
      assert ScoreAll(q, store, false)[j] == SymptomsOnlyScore(q, store[j]);
    }
    TopKScoresAtLeast(checks, store, false, 0);
    var best := Similarities(QueryOf(checks), store, false)[0].score;
    assert top[0].score == best;
    if best > 0 {
      TotalAtLeastFirst(top);
    } else {
      assert forall i :: 0 <= i < |top| ==> top[i].score <= top[0].score;
      TotalAtMost(top, 0);
      TotalAtLeast(top, 0);
    }
  }

  /** With binary cases, each vote of a non-empty case base is a percentage and they add up to 100. */
  lemma CbrVotesArePercentages(checks: seq<bool>, store: seq<Case>, labAware: bool)
    requires |checks| == NumSymptoms && |store| > 0
    requires forall j :: 0 <= j < |store| ==> BinaryCase(store[j])
    requires Decidable(TopK(checks, store, labAware))
    ensures forall d :: 0.0 <= Cbr(checks, store, labAware).votes.Get(d) <= 100.0
    ensures Cbr(checks, store, labAware).votes.Sum() == 100.0
  {
    var q := QueryOf(checks);
    forall j | 0 <= j < |store| ensures ScoreAll(q, store, labAware)[j].score >= 0 {
      if labAware {
        assert ScoreAll(q, store, labAware)[j] == LabAwareScore(q, store[j]);
      } else {
        assert ScoreAll(q, store, labAware)[j] == SymptomsOnlyScore(q, store[j]);
      }
    }
    TopKScoresAtLeast(checks, store, labAware, 0);
    VotesArePercentages(TopK(checks, store, labAware));
    VotesSumTo100(TopK(checks, store, labAware));
  }

  /** A case base whose cases all share one diagnosis returns it with confidence 100. */
  lemma CbrUnanimous(checks: seq<bool>, store: seq<Case>, labAware: bool, d: Diagnosis)
    requires |checks| == NumSymptoms && |store| > 0
    requires forall j :: 0 <= j < |store| ==> store[j].diagnosis == d
    requires Decidable(TopK(checks, store, labAware))
    ensures Cbr(checks, store, labAware).diagnosis == d
    ensures Cbr(checks, store, labAware).confidence == 100.0
  {
    var all := ScoreAll(QueryOf(checks), store, labAware);
    var top := TopK(checks, store, labAware);
    TopKFromStore(checks, store, labAware);
    forall i | 0 <= i < |top| ensures top[i].diagnosis == d {
      var j :| 0 <= j < |all| && all[j] == top[i];
    }
    Unanimous(top, d);
  }
}

=== FILE: ranking.dfy ===
/**
 * The similarity table of one query against the whole case base, sorted by
 * descending score, and top-K retrieval from it.
 */
module Ranking {
  import opened Cases
  import opened Similarity

  /** Non-increasing by score. */
  predicate SortedDesc(s: seq<Scored>) {
    forall i, j :: 0 <= i < j < |s| ==> s[i].score >= s[j].score
  }

  /** Places `x` into a sorted table, keeping it sorted. */
  function Insert(x: Scored, s: seq<Scored>): (r: seq<Scored>)
    requires SortedDesc(s)
    ensures SortedDesc(r)
    ensures multiset(r) == multiset(s) + multiset{x}
  {
    if |s| == 0 then [x]
    else if x.score >= s[0].score then [x] + s
    else
      var t := Insert(x, s[1..]);
      InsertBehindHead(x, s, t);
      [s[0]] + t
  }

  /** Putting the head back in front of the insertion into the tail keeps the table sorted. */
  lemma InsertBehindHead(x: Scored, s: seq<Scored>, t: seq<Scored>)
    requires |s| > 0 && SortedDesc(s) && x.score < s[0].score
    requires SortedDesc(t) && multiset(t) == multiset(s[1..]) + multiset{x}
    ensures SortedDesc([s[0]] + t)
    ensures multiset([s[0]] + t) == multiset(s) + multiset{x}
  {
    assert s == [s[0]] + s[1..];
    forall k | 0 <= k < |t| ensures t[k].score <= s[0].score {
      assert t[k] in multiset(s[1..]) + multiset{x};
    }
  }

  /**
   * Sorts a table by descending score. Nothing is promised about the order
   * of equal scores: the source's sort is not stable.
   */
  function Sort(s: seq<Scored>): (r: seq<Scored>)
    ensures SortedDesc(r)
    ensures multiset(r) == multiset(s)
  {
    if |s| == 0 then []
    else
      assert s == [s[0]] + s[1..];
      Insert(s[0], Sort(s[1..]))
  }

  /** One row per stored case, in case-base order, under the chosen profile. */
  function ScoreAll(q: Query, store: seq<Case>, labAware: bool): (r: seq<Scored>)
    ensures |r| == |store|
    ensures forall j :: 0 <= j < |store| ==>
      r[j].id == store[j].id && r[j].diagnosis == store[j].diagnosis && r[j].severity == store[j].severity
  {
    seq(|store|, i requires 0 <= i < |store| =>
      if labAware then LabAwareScore(q, store[i]) else SymptomsOnlyScore(q, store[i]))
  }

  /**
   * `calculate_case_similarity` (symptoms-only) or
   * `calculate_case_similarity_with_lab` (lab-aware): every stored case scored,
   * sorted by descending similarity.
   */
  function Similarities(q: Query, store: seq<Case>, labAware: bool): (r: seq<Scored>)
    requires |store| > 0
    ensures |r| == |store|
    ensures SortedDesc(r)
    ensures multiset(r) == multiset(ScoreAll(q, store, labAware))
  {
    var r := Sort(ScoreAll(q, store, labAware));
    assert |r| == |multiset(r)| == |multiset(ScoreAll(q, store, labAware))| == |store|;
    r
  }

  /** Every row of a table occurs in any permutation of it. */
  lemma PermutationCovers(r: seq<Scored>, a: seq<Scored>)
    requires multiset(r) == multiset(a)
    ensures forall j :: 0 <= j < |a| ==> a[j] in r
  {
    forall j | 0 <= j < |a| ensures a[j] in r {
      assert a[j] in multiset(r);
    }
  }

  /**
   * The ranking and the per-case rows hold the same rows: each stored case's
   * row is ranked, and every ranked row is the row of some stored case.
   */
  lemma SimilaritiesCoverStore(q: Query, store: seq<Case>, labAware: bool)
    requires |store| > 0
    ensures forall j :: 0 <= j < |store| ==> ScoreAll(q, store, labAware)[j] in Similarities(q, store, labAware)
    ensures forall i :: 0 <= i < |store| ==> Similarities(q, store, labAware)[i] in ScoreAll(q, store, labAware)
  {
    var r := Similarities(q, store, labAware);
    var a := ScoreAll(q, store, labAware);
    PermutationCovers(r, a);
    PermutationCovers(a, r);
  }

  /**
   * `retrieve_similar_cases`, that is `DataFrame.head(k)`: the first `k` rows;
   * a negative `k` keeps all but the last `-k` rows.
   */
  function Retrieve(ranked: seq<Scored>, k: int): (r: seq<Scored>)
    ensures |r| <= |ranked| && r == ranked[..|r|]
    ensures k >= 0 ==> |r| == if k < |ranked| then k else |ranked|
    ensures k < 0 ==> |r| == if |ranked| + k > 0 then |ranked| + k else 0
    ensures SortedDesc(ranked) ==> SortedDesc(r)
    ensures SortedDesc(ranked) ==>
      forall i, j :: 0 <= i < |r| <= j < |ranked| ==> r[i].score >= ranked[j].score
  {
    var n := if k >= 0 then (if k < |ranked| then k else |ranked|)
             else (if |ranked| + k > 0 then |ranked| + k else 0);
    ranked[..n]
  }
}

=== FILE: rows.dfy ===
/**
 * One row of the hematology dataset, after the string columns are
 * normalised: `Result` compared case-insensitively with "positive", and
 * `Gender` with "male".
 */
module Rows {

  import opened Labels

  datatype RawRow = RawRow(
    isPositive: bool,   // Result
    isMale: bool,       // Gender
    platelet: int,      // Total Platelet Count (/cumm)
    hct: real,          // HCT (%)
    wbc: int,           // Total WBC count (/cumm)
    hb: real)           // Hemoglobin (g/dl)

  /**
   * The diagnosis both the offline converter and the in-app loader read off
   * the `Result` column: DBD_POSITIF exactly for a positive result.
   */
  function RowDiagnosis(row: RawRow): (d: Diagnosis)
    ensures d == DbdPositif <==> row.isPositive
    ensures d == BukanDbd <==> !row.isPositive
  {
    if row.isPositive then DbdPositif else BukanDbd
  }
}

=== FILE: similarity.dfy ===
/**
 * The two similarity measures between a query and a stored case: a weighted
 * Manhattan distance over binary flags, with weights in hundredths, so that
 * the source's `(1 - distance) * 100` is the exact integer `100 - distance`.
 */
module Similarity {
  import opened Options
  import opened Labels
  import opened Cases

  /** Symptoms-only profile, canonical order; the weights total 100. */
  const SymptomWeights: seq<nat> := [12, 5, 8, 8, 3, 4, 4, 9, 9, 10, 2, 1, 7, 6, 12]

  /** Lab-aware profile, symptom part, canonical order; the weights total 74. */
  const LabProfileSymptomWeights: seq<nat> := [8, 3, 6, 6, 2, 3, 3, 7, 7, 8, 1, 1, 5, 4, 10]

  /** Lab-aware profile, lab part: high hematocrit, low leukocytes, low hemoglobin. */
  const LabWeights: seq<nat> := [12, 10, 8]

  /** One row of a similarity table. */
  datatype Scored = Scored(
    id: string,
    score: int,
    matched: nat,
    diagnosis: Diagnosis,
    severity: Severity)

  function Abs(x: int): nat {
    if x < 0 then -x else x
  }

  /** Sum of the first `n` weights. */
  function Total(w: seq<nat>, n: nat): nat
    requires n <= |w|
  {
    if n == 0 then 0 else Total(w, n - 1) + w[n - 1]
  }

  predicate Positive(w: seq<nat>) {
    forall i :: 0 <= i < |w| ==> w[i] > 0
  }

  /** Distance contributed by one feature: only when both sides carry it. */
  function Term(w: nat, q: Option<int>, c: Option<int>): nat {
    if q.Some? && c.Some? then w * Abs(q.value - c.value) else 0
  }

  /** Weighted Manhattan distance over the first `n` features both records carry. */
  function Distance(w: seq<nat>, q: seq<Option<int>>, c: seq<Option<int>>, n: nat): (d: nat)
    requires n <= |w| == |q| == |c|
    ensures BinaryOptions(q) && BinaryOptions(c) ==> d <= Total(w, n)
  {
    if n == 0 then 0
    else Distance(w, q, c, n - 1) + Term(w[n - 1], q[n - 1], c[n - 1])
  }

  /** Total weight of the first `n` features where both records carry different values. */
  function MismatchWeight(w: seq<nat>, q: seq<Option<int>>, c: seq<Option<int>>, n: nat): nat
    requires n <= |w| == |q| == |c|
  {
    if n == 0 then 0
    else
      MismatchWeight(w, q, c, n - 1)
      + (if q[n - 1].Some? && c[n - 1].Some? && q[n - 1].value != c[n - 1].value then w[n - 1] else 0)
  }

  /**
   * Number of symptoms that are 1 in both the query and the case; a key the
   * query lacks never matches.
   */
  function Matched(q: seq<Option<int>>, c: seq<int>): (m: nat)
    requires |q| == |c|
    ensures m <= CountOnes(q)
  {
    if |q| == 0 then 0
    else (if q[0] == Some(1) && c[0] == 1 then 1 else 0) + Matched(q[1..], c[1..])
  }

  /** Symptom distance of the symptoms-only profile; a missing query symptom reads as 0. */
  function SymptomsOnlyDistance(q: Query, c: Case): nat {
    Distance(SymptomWeights, Defaulted(q.symptoms), Present(c.symptoms), NumSymptoms)
  }

  /** Symptom distance of the lab-aware profile; a missing query symptom is skipped. */
  function LabProfileSymptomDistance(q: Query, c: Case): nat {
    Distance(LabProfileSymptomWeights, q.symptoms, Present(c.symptoms), NumSymptoms)
  }

  /** Lab distance of the lab-aware profile; a lab flag counts only when both sides carry it. */
  function LabDistance(q: Query, c: Case): nat {
    Distance(LabWeights, q.labs, c.labs, NumLabs)
  }

  /** `calculate_case_similarity`, one row. */
  function SymptomsOnlyScore(q: Query, c: Case): (r: Scored)
    ensures r.id == c.id && r.diagnosis == c.diagnosis && r.severity == c.severity
    ensures r.matched <= CountOnes(q.symptoms)
    ensures r.score <= 100
    ensures BinaryQuery(q) && BinaryCase(c) ==> 0 <= r.score
    ensures r.score == 100 <==>
      forall i :: 0 <= i < NumSymptoms ==> q.symptoms[i].GetOr(0) == c.symptoms[i]
  {
    WeightTables();
    DistanceZeroIff(SymptomWeights, Defaulted(q.symptoms), Present(c.symptoms), NumSymptoms);
    assert BinaryCase(c) ==> BinaryOptions(Present(c.symptoms));
    assert BinaryQuery(q) ==> BinaryOptions(Defaulted(q.symptoms));
    Scored(c.id, 100 - SymptomsOnlyDistance(q, c), Matched(q.symptoms, c.symptoms), c.diagnosis, c.severity)
  }

  /** `calculate_case_similarity_with_lab`, one row: the lab flags add to the same distance. */
  function LabAwareScore(q: Query, c: Case): (r: Scored)
    ensures r.id == c.id && r.diagnosis == c.diagnosis && r.severity == c.severity
    ensures r.matched == SymptomsOnlyScore(q, c).matched
    ensures r.score <= 100
    ensures BinaryQuery(q) && BinaryCase(c) ==> -4 <= r.score
    ensures BinaryQuery(q) && BinaryCase(c) && (forall j :: 0 <= j < NumLabs ==> q.labs[j].None?)
      ==> 26 <= r.score
  {
    WeightTables();
    assert BinaryCase(c) ==> BinaryOptions(Present(c.symptoms));
    DistanceWithoutQuery(LabWeights, q.labs, c.labs, NumLabs);
    Scored(c.id, 100 - LabProfileSymptomDistance(q, c) - LabDistance(q, c),
      Matched(q.symptoms, c.symptoms), c.diagnosis, c.severity)
  }

  /** The weight tables: all positive; 100 for symptoms-only, 74 + 30 = 104 for lab-aware. */
  lemma WeightTables()
    ensures Positive(SymptomWeights) && Positive(LabProfileSymptomWeights) && Positive(LabWeights)
    ensures Total(SymptomWeights, 15) == 100
    ensures Total(LabProfileSymptomWeights, 15) == 74
    ensures Total(LabWeights, 3) == 30
  {
    assert Total(SymptomWeights, 5) == 36 && Total(LabProfileSymptomWeights, 5) == 25;
    assert Total(SymptomWeights, 10) == 72 && Total(LabProfileSymptomWeights, 10) == 53;
  }

  /** The distance is zero exactly when the records agree wherever both carry a value. */
  lemma {:induction false} DistanceZeroIff(w: seq<nat>, q: seq<Option<int>>, c: seq<Option<int>>, n: nat)
    requires n <= |w| == |q| == |c| && Positive(w)
    ensures Distance(w, q, c, n) == 0 <==>
      forall i :: 0 <= i < n ==> q[i].Some? && c[i].Some? ==> q[i].value == c[i].value
  {
    if n > 0 {
      DistanceZeroIff(w, q, c, n - 1);
    }
  }

  /** Features the query does not carry contribute nothing. */
  lemma {:induction false} DistanceWithoutQuery(w: seq<nat>, q: seq<Option<int>>, c: seq<Option<int>>, n: nat)
    requires n <= |w| == |q| == |c|
    ensures (forall i :: 0 <= i < n ==> q[i].None?) ==> Distance(w, q, c, n) == 0
  {
    if n > 0 {
      DistanceWithoutQuery(w, q, c, n - 1);
    }
  }

  /** On binary flags the distance is the total weight of the mismatched features. */
  lemma {:induction false} DistanceIsMismatchWeight(w: seq<nat>, q: seq<Option<int>>, c: seq<Option<int>>, n: nat)
    requires n <= |w| == |q| == |c|
    requires BinaryOptions(q) && BinaryOptions(c)
    ensures Distance(w, q, c, n) == MismatchWeight(w, q, c, n)
  {
    if n > 0 {
      DistanceIsMismatchWeight(w, q, c, n - 1);
    }
  }

  /** The distance does not depend on which side is the query. */
  lemma {:induction false} DistanceSymmetric(w: seq<nat>, a: seq<Option<int>>, b: seq<Option<int>>, n: nat)
    requires n <= |w| == |a| == |b|
    ensures Distance(w, a, b, n) == Distance(w, b, a, n)
  {
    if n > 0 {
      DistanceSymmetric(w, a, b, n - 1);
    }
  }

  /** Changing one query feature changes the distance by that feature's term alone. */
  lemma {:induction false} DistanceUpdate(w: seq<nat>, q: seq<Option<int>>, c: seq<Option<int>>, n: nat, i: nat, x: Option<int>)
    requires n <= |w| == |q| == |c| && i < |q|
    ensures Distance(w, q[i := x], c, n)
      == Distance(w, q, c, n) + (if i < n then Term(w[i], x, c[i]) - Term(w[i], q[i], c[i]) else 0)
  {
    if n > 0 {
      DistanceUpdate(w, q, c, n - 1, i, x);
    }
  }

  /** Two queries with the same 1-entries match the same number of symptoms. */
  lemma MatchedOnlySeesOnes(q: seq<Option<int>>, q': seq<Option<int>>, c: seq<int>)
    requires |q| == |q'| == |c|
    requires forall i :: 0 <= i < |q| ==> (q[i] == Some(1) <==> q'[i] == Some(1))
    ensures Matched(q, c) == Matched(q', c)
  {
  }

  /** Every symptom the query marks 1 matches exactly when the case has it too. */
  lemma {:induction false} MatchedAllOnes(q: seq<Option<int>>, c: seq<int>)
    requires |q| == |c|
    ensures Matched(q, c) == CountOnes(q) <==> forall i :: 0 <= i < |q| && q[i] == Some(1) ==> c[i] == 1
  {
    if |q| > 0 {
      MatchedAllOnes(q[1..], c[1..]);
      assert forall i :: 1 <= i < |q| ==> q[1..][i - 1] == q[i] && c[1..][i - 1] == c[i];
    }
  }

  /** No symptom matches exactly when no position is 1 on both sides. */
  lemma {:induction false} MatchedNoneIff(q: seq<Option<int>>, c: seq<int>)
    requires |q| == |c|
    ensures Matched(q, c) == 0 <==> forall i :: 0 <= i < |q| ==> !(q[i] == Some(1) && c[i] == 1)
  {
    if |q| > 0 {
      MatchedNoneIff(q[1..], c[1..]);
      assert forall i :: 1 <= i < |q| ==> q[1..][i - 1] == q[i] && c[1..][i - 1] == c[i];
    }
  }

  /**
   * Symptoms-only score of 0/1 records: 100 minus the hundredth-weights of the
   * mismatched symptoms, reading a missing query symptom as 0.
   */
  lemma SymptomsOnlyIsMismatch(q: Query, c: Case)
    requires BinaryQuery(q) && BinaryCase(c)
    ensures SymptomsOnlyScore(q, c).score
      == 100 - MismatchWeight(SymptomWeights, Defaulted(q.symptoms), Present(c.symptoms), NumSymptoms)
  {
    assert BinaryOptions(Present(c.symptoms));
    assert BinaryOptions(Defaulted(q.symptoms));
    DistanceIsMismatchWeight(SymptomWeights, Defaulted(q.symptoms), Present(c.symptoms), NumSymptoms);
  }

  /** Lab-aware score of 0/1 records: 100 minus the weights of the mismatched symptoms and lab flags both sides carry. */
  lemma LabAwareIsMismatch(q: Query, c: Case)
    requires BinaryQuery(q) && BinaryCase(c)
    ensures LabAwareScore(q, c).score
      == 100 - MismatchWeight(LabProfileSymptomWeights, q.symptoms, Present(c.symptoms), NumSymptoms)
             - MismatchWeight(LabWeights, q.labs, c.labs, NumLabs)
  {
    assert BinaryOptions(Present(c.symptoms));
    DistanceIsMismatchWeight(LabProfileSymptomWeights, q.symptoms, Present(c.symptoms), NumSymptoms);
    DistanceIsMismatchWeight(LabWeights, q.labs, c.labs, NumLabs);
  }

  /** A stored case compared with a copy of itself scores 100 under both profiles. */
  lemma SelfSimilarity(c: Case)
    ensures SymptomsOnlyScore(AsQuery(c), c).score == 100
    ensures LabAwareScore(AsQuery(c), c).score == 100
  {
    WeightTables();
    DistanceZeroIff(LabProfileSymptomWeights, Present(c.symptoms), Present(c.symptoms), NumSymptoms);
    DistanceZeroIff(LabWeights, c.labs, c.labs, NumLabs);
  }

  /** With every key present on both sides, the score does not depend on which record is the query. */
  lemma Symmetric(a: Case, b: Case)
    ensures SymptomsOnlyScore(AsQuery(a), b).score == SymptomsOnlyScore(AsQuery(b), a).score
    ensures LabAwareScore(AsQuery(a), b).score == LabAwareScore(AsQuery(b), a).score
  {
    assert Defaulted(Present(a.symptoms)) == Present(a.symptoms);
    assert Defaulted(Present(b.symptoms)) == Present(b.symptoms);
    DistanceSymmetric(SymptomWeights, Present(a.symptoms), Present(b.symptoms), NumSymptoms);
    DistanceSymmetric(LabProfileSymptomWeights, Present(a.symptoms), Present(b.symptoms), NumSymptoms);
    DistanceSymmetric(LabWeights, a.labs, b.labs, NumLabs);
  }

  /** Symptoms-only: a missing query symptom behaves exactly like a 0. */
  lemma SymptomsOnlyMissingReadsZero(q: Query, c: Case, i: nat)
    requires i < NumSymptoms && q.symptoms[i].None?
    ensures SymptomsOnlyScore(q, c) == SymptomsOnlyScore(Query(q.symptoms[i := Some(0)], q.labs), c)
  {
    assert Defaulted(q.symptoms) == Defaulted(q.symptoms[i := Some(0)]);
    MatchedOnlySeesOnes(q.symptoms, q.symptoms[i := Some(0)], c.symptoms);
  }

  /**
   * Lab-aware: a missing query symptom is skipped, so it scores as if the
   * query agreed with the case there.
   */
  lemma LabAwareMissingIsSkipped(q: Query, c: Case, i: nat)
    requires i < NumSymptoms && q.symptoms[i].None?
    ensures LabAwareScore(q, c).score
      == LabAwareScore(Query(q.symptoms[i := Some(c.symptoms[i])], q.labs), c).score
  {
    DistanceUpdate(LabProfileSymptomWeights, q.symptoms, Present(c.symptoms), NumSymptoms, i, Some(c.symptoms[i]));
  }

  /** A lab flag adds distance only when both the query and the case carry it. */
  lemma LabFlagNeedsBoth(q: Query, c: Case, j: nat, x: Option<int>)
    requires j < NumLabs && (q.labs[j].None? || c.labs[j].None?)
    ensures LabAwareScore(Query(q.symptoms, q.labs[j := x]), c).score
      == LabAwareScore(q, c).score - Term(LabWeights[j], x, c.labs[j])
  {
    DistanceUpdate(LabWeights, q.labs, c.labs, NumLabs, j, x);
  }

  /**
   * Turning one agreeing symptom of a 0/1 case into a disagreeing one lowers
   * the symptoms-only score by exactly that symptom's weight.
   */
  lemma MismatchCostsWeight(q: Query, c: Case, i: nat)
    requires BinaryQuery(q) && BinaryCase(c) && i < NumSymptoms
    requires q.symptoms[i].GetOr(0) == c.symptoms[i]
    ensures SymptomsOnlyScore(q, c.(symptoms := c.symptoms[i := 1 - c.symptoms[i]])).score
      == SymptomsOnlyScore(q, c).score - SymptomWeights[i]
  {
    var c' := c.(symptoms := c.symptoms[i := 1 - c.symptoms[i]]);
    var y := Some(1 - c.symptoms[i]);
    var dq := Defaulted(q.symptoms);
    CaseFlipPresent(c.symptoms, i);
    DistanceUpdateCase(SymptomWeights, dq, Present(c.symptoms), NumSymptoms, i, y);
    FlipTerm(SymptomWeights[i], c.symptoms[i]);
    assert dq[i] == Some(c.symptoms[i]);
    assert SymptomsOnlyDistance(q, c') == SymptomsOnlyDistance(q, c) + SymptomWeights[i];
  }

  /** On a 0/1 flag, disagreeing costs the whole weight and agreeing costs nothing. */
  lemma FlipTerm(w: nat, x: int)
    requires Binary(x)
    ensures Term(w, Some(x), Some(1 - x)) == w
    ensures Term(w, Some(x), Some(x)) == 0
  {
  }

  /** Flipping one flag of a stored case flips the same entry of its presented form. */
  lemma CaseFlipPresent(s: SymptomFlags, i: nat)
    requires i < NumSymptoms
    ensures Present(s[i := 1 - s[i]]) == Present(s)[i := Some(1 - s[i])]
  {
  }

  /** Changing one case feature changes the distance by that feature's term alone. */
  lemma DistanceUpdateCase(w: seq<nat>, q: seq<Option<int>>, c: seq<Option<int>>, n: nat, i: nat, y: Option<int>)
    requires n <= |w| == |q| == |c| && i < |c|
    ensures Distance(w, q, c[i := y], n)
      == Distance(w, q, c, n) + (if i < n then Term(w[i], q[i], y) - Term(w[i], q[i], c[i]) else 0)
  {
    DistanceSymmetric(w, q, c, n);
    DistanceSymmetric(w, q, c[i := y], n);
    DistanceUpdate(w, c, q, n, i, y);
  }

  /**
   * The lab-aware profile totals 104: records that carry every feature and
   * disagree on all of them score -4.
   */
  lemma LabAwareAllMismatched(q: Query, c: Case)
    requires forall i :: 0 <= i < NumSymptoms ==> Binary(c.symptoms[i]) && q.symptoms[i] == Some(1 - c.symptoms[i])
    requires forall j :: 0 <= j < NumLabs ==>
      c.labs[j].Some? && Binary(c.labs[j].value) && q.labs[j] == Some(1 - c.labs[j].value)
    ensures LabAwareScore(q, c).score == -4
  {
    var pc := Present(c.symptoms);
    WeightTables();
    assert BinaryOptions(q.symptoms) && BinaryOptions(pc);
    assert BinaryOptions(q.labs) && BinaryOptions(c.labs);
    MismatchAll(LabProfileSymptomWeights, q.symptoms, pc, NumSymptoms);
    MismatchAll(LabWeights, q.labs, c.labs, NumLabs);
    DistanceIsMismatchWeight(LabProfileSymptomWeights, q.symptoms, pc, NumSymptoms);
    DistanceIsMismatchWeight(LabWeights, q.labs, c.labs, NumLabs);
  }

  /** The floor is reached: an all-ones query against an all-zeros case. */
  lemma LabAwareFloorReached()
    ensures LabAwareScore(
      Query(seq(NumSymptoms, _ => Some(1)), [Some(1), Some(1), Some(1)]),
      Case("", seq(NumSymptoms, _ => 0), [Some(0), Some(0), Some(0)], BukanDbd, NonDbd)).score == -4
  {
    LabAwareAllMismatched(
      Query(seq(NumSymptoms, _ => Some(1)), [Some(1), Some(1), Some(1)]),
      Case("", seq(NumSymptoms, _ => 0), [Some(0), Some(0), Some(0)], BukanDbd, NonDbd));
  }

  /** When the records differ on every feature, the mismatch weight is the whole weight. */
  lemma {:induction false} MismatchAll(w: seq<nat>, q: seq<Option<int>>, c: seq<Option<int>>, n: nat)
    requires n <= |w| == |q| == |c|
    requires forall i :: 0 <= i < n ==> q[i].Some? && c[i].Some? && q[i].value != c[i].value
    ensures MismatchWeight(w, q, c, n) == Total(w, n)
  {
    if n > 0 {
      MismatchAll(w, q, c, n - 1);
    }
  }
}

=== FILE: voting.dfy ===
/**
 * `diagnose_from_similar_cases`: similarity-weighted voting over the top-K
 * rows, with exact rational votes.
 */
module Voting {
  import opened Labels
  import opened Similarity

  /** Sum of the scores of the rows. */
  function TotalScore(es: seq<Scored>): int {
    if |es| == 0 then 0 else TotalScore(es[..|es| - 1]) + es[|es| - 1].score
  }

  /** Sum of the scores of the rows carrying diagnosis `d`. */
  function ScoreFor(es: seq<Scored>, d: Diagnosis): int {
    if |es| == 0 then 0
    else ScoreFor(es[..|es| - 1], d) + (if es[|es| - 1].diagnosis == d then es[|es| - 1].score else 0)
  }

  /** Sum of the scores of the rows carrying severity `s`. */
  function SeverityScore(es: seq<Scored>, s: Severity): int {
    if |es| == 0 then 0
    else SeverityScore(es[..|es| - 1], s) + (if es[|es| - 1].severity == s then es[|es| - 1].score else 0)
  }

  /** The severities of the rows, in row order. */
  function Severities(es: seq<Scored>): (ks: seq<Severity>)
    ensures |ks| == |es|
    ensures forall i :: 0 <= i < |es| ==> ks[i] == es[i].severity
  {
    seq(|es|, i requires 0 <= i < |es| => es[i].severity)
  }

  /** Some entry is `s`. */
  predicate Seen(ks: seq<Severity>, s: Severity) {
    |ks| > 0 && (Seen(ks[..|ks| - 1], s) || ks[|ks| - 1] == s)
  }

  /** `Seen` holds exactly when `s` occurs. */
  lemma {:induction false} SeenIff(ks: seq<Severity>, s: Severity)
    ensures Seen(ks, s) <==> s in ks
  {
    if |ks| > 0 {
      var p := ks[..|ks| - 1];
      SeenIff(p, s);
      assert ks == p + [ks[|ks| - 1]];
    }
  }

  /** Index of the first entry equal to `s`. */
  function FirstSeen(ks: seq<Severity>, s: Severity): (k: nat)
    requires Seen(ks, s)
    ensures k < |ks| && ks[k] == s
    ensures forall i :: 0 <= i < k ==> ks[i] != s
  {
    if Seen(ks[..|ks| - 1], s) then FirstSeen(ks[..|ks| - 1], s)
    else
      SeenIff(ks[..|ks| - 1], s);
      assert forall i :: 0 <= i < |ks| - 1 ==> ks[..|ks| - 1][i] == ks[i];
      |ks| - 1
  }

  /** The keys `order` were seen, and appear in the order they were first seen. */
  predicate InFirstSeenOrder(ks: seq<Severity>, order: seq<Severity>) {
    && (forall i :: 0 <= i < |order| ==> Seen(ks, order[i]))
    && (forall i, j :: 0 <= i < j < |order| ==> FirstSeen(ks, order[i]) < FirstSeen(ks, order[j]))
  }

  /**
   * Voting is defined: no rows, or a non-zero total. (The source divides by
   * the total only inside its per-row loop.)
   */
  predicate Decidable(es: seq<Scored>) {
    |es| == 0 || TotalScore(es) != 0
  }

  /** Percentage of the total similarity held by the rows of diagnosis `d`. */
  function DiagnosisShare(es: seq<Scored>, d: Diagnosis): real
    requires TotalScore(es) != 0
  {
    100.0 * ScoreFor(es, d) as real / TotalScore(es) as real
  }

  /** Share of the total similarity held by the rows of severity `s`. */
  function SeverityShare(es: seq<Scored>, s: Severity): real
    requires TotalScore(es) != 0
  {
    SeverityScore(es, s) as real / TotalScore(es) as real
  }

  /** The diagnosis vote map; all three labels are always present. */
  datatype Tally = Tally(dbd: real, suspek: real, bukan: real) {

    function Get(d: Diagnosis): real {
      match d
      case DbdPositif => dbd
      case SuspekDbd => suspek
      case BukanDbd => bukan
    }

    function Add(d: Diagnosis, x: real): (t: Tally)
      ensures t.Get(d) == Get(d) + x
      ensures forall e :: e != d ==> t.Get(e) == Get(e)
    {
      match d
      case DbdPositif => this.(dbd := dbd + x)
      case SuspekDbd => this.(suspek := suspek + x)
      case BukanDbd => this.(bukan := bukan + x)
    }

    function Sum(): real {
      dbd + suspek + bukan
    }

    /** The votes in `DiagnosisOrder`. */
    function Values(): (xs: seq<real>)
      ensures |xs| == |DiagnosisOrder|
      ensures forall i :: 0 <= i < |xs| ==> xs[i] == Get(DiagnosisOrder[i])
    {
      [dbd, suspek, bukan]
    }
  }

  /** A row's voting weight: its similarity over the total. */
  function Weight(e: Scored, total: real): real
    requires total != 0.0
  {
    e.score as real / total
  }

  /** The diagnosis votes after scanning the rows in order: each adds `weight * 100`. */
  function DiagnosisTally(es: seq<Scored>, total: real): (t: Tally)
    requires total != 0.0
    ensures forall d :: t.Get(d) == 100.0 * ScoreFor(es, d) as real / total
  {
    if |es| == 0 then Tally(0.0, 0.0, 0.0)
    else
      var prev := DiagnosisTally(es[..|es| - 1], total);
      var e := es[|es| - 1];
      var t := prev.Add(e.diagnosis, Weight(e, total) * 100.0);
      assert forall d :: t.Get(d) == 100.0 * ScoreFor(es, d) as real / total by {
        forall d ensures t.Get(d) == 100.0 * ScoreFor(es, d) as real / total {
          var a := ScoreFor(es[..|es| - 1], d) as real;
          if e.diagnosis == d {
            calc {
              t.Get(d);
              100.0 * a / total + e.score as real / total * 100.0;
              { DivAdd(100.0 * a, 100.0 * e.score as real, total); }
              (100.0 * a + 100.0 * e.score as real) / total;
            }
          }
        }
      }
      t
  }

  lemma DivAdd(x: real, y: real, z: real)
    requires z != 0.0
    ensures x / z + y / z == (x + y) / z
  {
  }

  /** The severity vote map: its keys in first-seen order, and their weights. */
  datatype SeverityVotes = SeverityVotes(order: seq<Severity>, weight: map<Severity, real>) {

    /** Keys are the distinct entries of `order`, as in an insertion-ordered dictionary. */
    predicate Valid() {
      && (forall i, j :: 0 <= i < j < |order| ==> order[i] != order[j])
      && (forall s :: s in weight <==> s in order)
    }

    /** Adds `w` to the weight of `s`, appending `s` as a new key if unseen. */
    function Add(s: Severity, w: real): (v: SeverityVotes)
      requires Valid()
      ensures v.Valid()
    {
      if s in weight then SeverityVotes(order, weight[s := weight[s] + w])
      else SeverityVotes(order + [s], weight[s := w])
    }

    /** The weights in key order. */
    function Values(): (xs: seq<real>)
      requires Valid()
      ensures |xs| == |order|
      ensures forall i :: 0 <= i < |order| ==> xs[i] == weight[order[i]]
    {
      seq(|order|, i requires 0 <= i < |order| => weight[order[i]])
    }
  }

  function SumOver(order: seq<Severity>, weight: map<Severity, real>): real
    requires forall s :: s in order ==> s in weight
  {
    if |order| == 0 then 0.0 else weight[order[0]] + SumOver(order[1..], weight)
  }

  /** Sum of the weights cast for key `s`. */
  function WeightFor(ks: seq<Severity>, ws: seq<real>, s: Severity): real
    requires |ks| == |ws|
  {
    if |ks| == 0 then 0.0
    else WeightFor(ks[..|ks| - 1], ws[..|ws| - 1], s) + (if ks[|ks| - 1] == s then ws[|ws| - 1] else 0.0)
  }

  function Sum(ws: seq<real>): real {
    if |ws| == 0 then 0.0 else Sum(ws[..|ws| - 1]) + ws[|ws| - 1]
  }

  /**
   * The insertion-ordered accumulation the source's severity loop performs:
   * entry `i` adds `ws[i]` under key `ks[i]`.
   */
  function Accumulate(ks: seq<Severity>, ws: seq<real>): (v: SeverityVotes)
    requires |ks| == |ws|
    ensures v.Valid()
    ensures forall s :: s in v.weight <==> Seen(ks, s)
    ensures forall s :: s in v.weight ==> v.weight[s] == WeightFor(ks, ws, s)
    ensures InFirstSeenOrder(ks, v.order)
    ensures SumOver(v.order, v.weight) == Sum(ws)
  {
    if |ks| == 0 then SeverityVotes([], map[])
    else
      var prev := Accumulate(ks[..|ks| - 1], ws[..|ws| - 1]);
      var v := prev.Add(ks[|ks| - 1], ws[|ws| - 1]);
      AddFacts(prev, ks[|ks| - 1], ws[|ws| - 1]);
      StepWeights(ks, ws, prev, v);
      StepOrder(ks, prev, v);
      v
  }

  /** What one `Add` does to the keys, their order, the weights and their sum. */
  lemma AddFacts(prev: SeverityVotes, s: Severity, w: real)
    requires prev.Valid()
    ensures var v := prev.Add(s, w);
      && (forall t :: t in v.weight <==> t in prev.weight || t == s)
      && (forall t :: t in v.weight ==>
            v.weight[t] == (if t in prev.weight then prev.weight[t] else 0.0) + (if t == s then w else 0.0))
      && v.order == (if s in prev.weight then prev.order else prev.order + [s])
      && SumOver(v.order, v.weight) == SumOver(prev.order, prev.weight) + w
  {
    if s in prev.weight {
      SumOverUpdate(prev.order, prev.weight, s, w);
    } else {
      SumOverAppend(prev.order, prev.weight, s, w);
    }
  }

  lemma StepWeights(ks: seq<Severity>, ws: seq<real>, prev: SeverityVotes, v: SeverityVotes)
    requires |ks| == |ws| > 0
    requires forall s :: s in prev.weight <==> Seen(ks[..|ks| - 1], s)
    requires forall s :: s in prev.weight ==> prev.weight[s] == WeightFor(ks[..|ks| - 1], ws[..|ws| - 1], s)
    requires forall t :: t in v.weight <==> t in prev.weight || t == ks[|ks| - 1]
    requires forall t :: t in v.weight ==>
      v.weight[t] == (if t in prev.weight then prev.weight[t] else 0.0) + (if t == ks[|ks| - 1] then ws[|ws| - 1] else 0.0)
    ensures forall s :: s in v.weight <==> Seen(ks, s)
    ensures forall s :: s in v.weight ==> v.weight[s] == WeightFor(ks, ws, s)
  {
    forall s | s in v.weight && s !in prev.weight
      ensures WeightFor(ks[..|ks| - 1], ws[..|ws| - 1], s) == 0.0
    {
      NotSeenWeighsZero(ks[..|ks| - 1], ws[..|ws| - 1], s);
    }
  }

  lemma StepOrder(ks: seq<Severity>, prev: SeverityVotes, v: SeverityVotes)
    requires |ks| > 0
    requires prev.Valid()
    requires forall s :: s in prev.weight <==> Seen(ks[..|ks| - 1], s)
    requires InFirstSeenOrder(ks[..|ks| - 1], prev.order)
    requires v.order == (if ks[|ks| - 1] in prev.weight then prev.order else prev.order + [ks[|ks| - 1]])
    ensures InFirstSeenOrder(ks, v.order)
  {
    var p := ks[..|ks| - 1];
    forall i | 0 <= i < |prev.order| ensures Seen(p, prev.order[i]) && FirstSeen(ks, prev.order[i]) == FirstSeen(p, prev.order[i]) {
    }
  }

  lemma {:induction false} NotSeenWeighsZero(ks: seq<Severity>, ws: seq<real>, s: Severity)
    requires |ks| == |ws| && !Seen(ks, s)
    ensures WeightFor(ks, ws, s) == 0.0
  {
    if |ks| > 0 {
      NotSeenWeighsZero(ks[..|ks| - 1], ws[..|ws| - 1], s);
    }
  }

  /** The weights the rows cast: similarity over the total. */
  function Ballots(es: seq<Scored>, total: real): (ws: seq<real>)
    requires total != 0.0
    ensures |ws| == |es|
    ensures forall i :: 0 <= i < |es| ==> ws[i] == Weight(es[i], total)
  {
    seq(|es|, i requires 0 <= i < |es| => Weight(es[i], total))
  }

  /** The weights cast for severity `s` add up to its share of the similarity. */
  lemma {:induction false} BallotsForSeverity(es: seq<Scored>, total: real, s: Severity)
    requires total != 0.0
    ensures WeightFor(Severities(es), Ballots(es, total), s) == SeverityScore(es, s) as real / total
  {
    if |es| > 0 {
      var p := es[..|es| - 1];
      BallotsForSeverity(p, total, s);
      assert Severities(es)[..|es| - 1] == Severities(p);
      assert Ballots(es, total)[..|es| - 1] == Ballots(p, total);
      var add := if es[|es| - 1].severity == s then es[|es| - 1].score else 0;
      DivAdd(SeverityScore(p, s) as real, add as real, total);
    }
  }

  /** All the weights add up to the total similarity over `total`. */
  lemma {:induction false} BallotsSum(es: seq<Scored>, total: real)
    requires total != 0.0
    ensures Sum(Ballots(es, total)) == TotalScore(es) as real / total
  {
    if |es| > 0 {
      var p := es[..|es| - 1];
      BallotsSum(p, total);
      assert Ballots(es, total)[..|es| - 1] == Ballots(p, total);
      DivAdd(TotalScore(p) as real, es[|es| - 1].score as real, total);
    }
  }

  /** The severity votes after scanning the rows in order: each adds its weight. */
  function SeverityTally(es: seq<Scored>, total: real): (v: SeverityVotes)
    requires total != 0.0
    ensures v.Valid()
    ensures forall s :: s in v.weight <==> Seen(Severities(es), s)
    ensures forall s :: s in v.weight ==> v.weight[s] == SeverityScore(es, s) as real / total
    ensures InFirstSeenOrder(Severities(es), v.order)
    ensures SumOver(v.order, v.weight) == TotalScore(es) as real / total
  {
    var v := Accumulate(Severities(es), Ballots(es, total));
    forall s | s in v.weight ensures v.weight[s] == SeverityScore(es, s) as real / total {
      BallotsForSeverity(es, total, s);
    }
    BallotsSum(es, total);
    v
  }

  lemma {:induction false} SumOverUpdate(order: seq<Severity>, weight: map<Severity, real>, s: Severity, w: real)
    requires forall i, j :: 0 <= i < j < |order| ==> order[i] != order[j]
    requires forall t :: t in order ==> t in weight
    requires s in order && s in weight
    ensures SumOver(order, weight[s := weight[s] + w]) == SumOver(order, weight) + w
  {
    if order[0] == s {
      assert s !in order[1..] by {
        forall k | 0 <= k < |order[1..]| ensures order[1..][k] != s {
          assert order[1..][k] == order[k + 1];
        }
      }
      SumOverUnchanged(order[1..], weight, s, weight[s] + w);
    } else {
      SumOverUpdate(order[1..], weight, s, w);
    }
  }

  lemma {:induction false} SumOverAppend(order: seq<Severity>, weight: map<Severity, real>, s: Severity, w: real)
    requires forall t :: t in order ==> t in weight
    requires s !in order
    ensures SumOver(order + [s], weight[s := w]) == SumOver(order, weight) + w
  {
    if |order| == 0 {
    } else {
      assert (order + [s])[1..] == order[1..] + [s];
      SumOverAppend(order[1..], weight, s, w);
    }
  }

  lemma {:induction false} SumOverUnchanged(order: seq<Severity>, weight: map<Severity, real>, s: Severity, x: real)
    requires forall t :: t in order ==> t in weight
    requires s !in order
    ensures SumOver(order, weight[s := x]) == SumOver(order, weight)
  {
    if |order| > 0 {
      SumOverUnchanged(order[1..], weight, s, x);
    }
  }

  /**
   * Index of the first maximum, as Python's `max(d, key=d.get)` picks it:
   * a later value replaces the current one only when strictly greater.
   */
  function FirstMaxIndex(xs: seq<real>): (k: nat)
    requires |xs| > 0
    ensures k < |xs|
    ensures forall i :: 0 <= i < |xs| ==> xs[i] <= xs[k]
    ensures forall i :: 0 <= i < k ==> xs[i] < xs[k]
  {
    if |xs| == 1 then 0
    else
      var k := FirstMaxIndex(xs[..|xs| - 1]);
      if xs[|xs| - 1] > xs[k] then |xs| - 1 else k
  }

  /** What the voting returns: diagnosis, confidence, the vote map and severity. */
  datatype Verdict = Verdict(
    diagnosis: Diagnosis,
    confidence: real,
    votes: Tally,
    severity: SeverityVerdict)

  /** The label with the most votes; ties go to the label earlier in `DiagnosisOrder`. */
  function Winner(t: Tally): (d: Diagnosis)
    ensures forall e :: t.Get(e) <= t.Get(d)
    ensures forall e :: Priority(e) < Priority(d) ==> t.Get(e) < t.Get(d)
  {
    var k := FirstMaxIndex(t.Values());
    assert forall e :: t.Values()[Priority(e)] == t.Get(e);
    DiagnosisOrder[k]
  }

  /** The severity with the most weight; ties go to the one seen first; UNKNOWN for no rows. */
  function FinalSeverity(topK: seq<Scored>): (r: SeverityVerdict)
    requires Decidable(topK)
    ensures r.Unknown? <==> |topK| == 0
    ensures r.Graded? ==> Seen(Severities(topK), r.grade)
    ensures r.Graded? ==> forall s :: Seen(Severities(topK), s) ==>
      SeverityShare(topK, s) <= SeverityShare(topK, r.grade)
    ensures r.Graded? ==> forall s ::
      Seen(Severities(topK), s) && FirstSeen(Severities(topK), s) < FirstSeen(Severities(topK), r.grade) ==>
      SeverityShare(topK, s) < SeverityShare(topK, r.grade)
  {
    if |topK| == 0 then Unknown
    else
      var ks := Severities(topK);
      var sv := SeverityTally(topK, TotalScore(topK) as real);
      assert Seen(ks, ks[|ks| - 1]);
      var xs := sv.Values();
      var j := FirstMaxIndex(xs);
      LargestKeyWins(topK, sv, j);
      FirstLargestKeyBeatsEarlier(topK, sv, j);
      Graded(sv.order[j])
  }

  /** The weight at key position `i` is that key's share, and the key occurs among the rows. */
  lemma ShareAt(topK: seq<Scored>, sv: SeverityVotes, i: nat)
    requires TotalScore(topK) != 0
    requires sv == SeverityTally(topK, TotalScore(topK) as real)
    requires i < |sv.order|
    ensures Seen(Severities(topK), sv.order[i])
    ensures sv.Values()[i] == SeverityShare(topK, sv.order[i])
  {
    assert sv.order[i] in sv.weight;
  }

  /** The key at a maximal position of the severity weights has the largest share. */
  lemma LargestKeyWins(topK: seq<Scored>, sv: SeverityVotes, j: nat)
    requires TotalScore(topK) != 0
    requires sv == SeverityTally(topK, TotalScore(topK) as real)
    requires j < |sv.order|
    requires forall i :: 0 <= i < |sv.order| ==> sv.Values()[i] <= sv.Values()[j]
    ensures Seen(Severities(topK), sv.order[j])
    ensures forall s :: Seen(Severities(topK), s) ==>
      SeverityShare(topK, s) <= SeverityShare(topK, sv.order[j])
  {
    ShareAt(topK, sv, j);
    forall s | Seen(Severities(topK), s)
      ensures SeverityShare(topK, s) <= SeverityShare(topK, sv.order[j])
    {
      assert s in sv.weight;
      var i :| 0 <= i < |sv.order| && sv.order[i] == s;
      ShareAt(topK, sv, i);
    }
  }

  /** At a first-maximal position, the key beats every key seen before it. */
  lemma FirstLargestKeyBeatsEarlier(topK: seq<Scored>, sv: SeverityVotes, j: nat)
    requires TotalScore(topK) != 0
    requires sv == SeverityTally(topK, TotalScore(topK) as real)
    requires j < |sv.order|
    requires forall i :: 0 <= i < j ==> sv.Values()[i] < sv.Values()[j]
    ensures Seen(Severities(topK), sv.order[j])
    ensures forall s ::
      Seen(Severities(topK), s) && FirstSeen(Severities(topK), s) < FirstSeen(Severities(topK), sv.order[j]) ==>
      SeverityShare(topK, s) < SeverityShare(topK, sv.order[j])
  {
    var ks := Severities(topK);
    ShareAt(topK, sv, j);
    assert InFirstSeenOrder(ks, sv.order);
    forall s | Seen(ks, s) && FirstSeen(ks, s) < FirstSeen(ks, sv.order[j])
      ensures SeverityShare(topK, s) < SeverityShare(topK, sv.order[j])
    {
      assert s in sv.weight;
      var i :| 0 <= i < |sv.order| && sv.order[i] == s;
      assert i < j;
      ShareAt(topK, sv, i);
    }
  }

  /** `diagnose_from_similar_cases`. */
  function Diagnose(topK: seq<Scored>): (v: Verdict)
    requires Decidable(topK)
    ensures v.confidence == v.votes.Get(v.diagnosis)
    ensures forall d :: v.votes.Get(d) <= v.confidence
    ensures forall d :: Priority(d) < Priority(v.diagnosis) ==> v.votes.Get(d) < v.confidence
    ensures |topK| == 0 ==> v.votes == Tally(0.0, 0.0, 0.0) && v.diagnosis == DbdPositif
    ensures |topK| > 0 ==> forall d :: v.votes.Get(d) == DiagnosisShare(topK, d)
    ensures v.severity == FinalSeverity(topK)
  {
    if |topK| == 0 then
      var tally := Tally(0.0, 0.0, 0.0);
      Verdict(Winner(tally), 0.0, tally, Unknown)
    else
      var tally := DiagnosisTally(topK, TotalScore(topK) as real);
      var d := Winner(tally);
      Verdict(d, tally.Get(d), tally, FinalSeverity(topK))
  }

  /** Every row carries exactly one diagnosis, so the per-label scores partition the total. */
  lemma {:induction false} ScoreForPartition(es: seq<Scored>)
    ensures ScoreFor(es, DbdPositif) + ScoreFor(es, SuspekDbd) + ScoreFor(es, BukanDbd) == TotalScore(es)
  {
    if |es| > 0 {
      ScoreForPartition(es[..|es| - 1]);
    }
  }

  /** With at least one row, the three diagnosis votes add up to 100. */
  lemma VotesSumTo100(topK: seq<Scored>)
    requires |topK| > 0 && Decidable(topK)
    ensures Diagnose(topK).votes.Sum() == 100.0
  {
    var votes := Diagnose(topK).votes;
    ScoreForPartition(topK);
    SharesSumTo100(topK);
    assert votes.Sum() == votes.Get(DbdPositif) + votes.Get(SuspekDbd) + votes.Get(BukanDbd);
  }

  lemma SharesSumTo100(es: seq<Scored>)
    requires TotalScore(es) != 0
    requires ScoreFor(es, DbdPositif) + ScoreFor(es, SuspekDbd) + ScoreFor(es, BukanDbd) == TotalScore(es)
    ensures DiagnosisShare(es, DbdPositif) + DiagnosisShare(es, SuspekDbd) + DiagnosisShare(es, BukanDbd) == 100.0
  {
    var t := TotalScore(es) as real;
    var a := ScoreFor(es, DbdPositif) as real;
    var b := ScoreFor(es, SuspekDbd) as real;
    var c := ScoreFor(es, BukanDbd) as real;
    DivAdd(100.0 * a, 100.0 * b, t);
    DivAdd(100.0 * a + 100.0 * b, 100.0 * c, t);
    assert 100.0 * a + 100.0 * b + 100.0 * c == 100.0 * t;
    ScaleDiv(100.0, t);
  }

  lemma ScaleDiv(k: real, t: real)
    requires t != 0.0
    ensures k * t / t == k
  {
  }

  /** The severity weights add up to 1. */
  lemma SeverityWeightsSumToOne(topK: seq<Scored>)
    requires |topK| > 0 && Decidable(topK)
    ensures var v := SeverityTally(topK, TotalScore(topK) as real); SumOver(v.order, v.weight) == 1.0
  {
    var t := TotalScore(topK) as real;
    assert t / t == 1.0;
  }

  /** Scores of the rows with one diagnosis never exceed the total when no score is negative. */
  lemma {:induction false} ScoreForBounded(es: seq<Scored>, d: Diagnosis)
    requires forall i :: 0 <= i < |es| ==> es[i].score >= 0
    ensures 0 <= ScoreFor(es, d) <= TotalScore(es)
  {
    if |es| > 0 {
      ScoreForBounded(es[..|es| - 1], d);
    }
  }

  /** With non-negative similarities and at least one row, each vote is a percentage. */
  lemma VotesArePercentages(topK: seq<Scored>)
    requires |topK| > 0 && Decidable(topK)
    requires forall i :: 0 <= i < |topK| ==> topK[i].score >= 0
    ensures forall d :: 0.0 <= Diagnose(topK).votes.Get(d) <= 100.0
    ensures 0.0 <= Diagnose(topK).confidence <= 100.0
  {
    var votes := Diagnose(topK).votes;
    forall d ensures 0.0 <= votes.Get(d) <= 100.0 {
      ScoreForBounded(topK, d);
      ShareIsPercentage(topK, d);
    }
  }

  lemma ShareIsPercentage(es: seq<Scored>, d: Diagnosis)
    requires 0 <= ScoreFor(es, d) <= TotalScore(es) && TotalScore(es) != 0
    ensures 0.0 <= DiagnosisShare(es, d) <= 100.0
  {
    PercentBounds(ScoreFor(es, d) as real, TotalScore(es) as real);
  }

  lemma PercentBounds(x: real, t: real)
    requires 0.0 <= x <= t && t != 0.0
    ensures 0.0 <= 100.0 * x / t <= 100.0
  {
    assert 100.0 * x <= 100.0 * t;
    ScaleDiv(100.0, t);
  }

  /** Rows that all carry diagnosis `d` hold the whole total, and other labels nothing. */
  lemma {:induction false} UnanimousScores(es: seq<Scored>, d: Diagnosis)
    requires forall i :: 0 <= i < |es| ==> es[i].diagnosis == d
    ensures ScoreFor(es, d) == TotalScore(es)
    ensures forall e :: e != d ==> ScoreFor(es, e) == 0
  {
    if |es| > 0 {
      UnanimousScores(es[..|es| - 1], d);
    }
  }

  /** When every retrieved row agrees on a diagnosis, it wins with confidence 100. */
  lemma Unanimous(topK: seq<Scored>, d: Diagnosis)
    requires |topK| > 0 && Decidable(topK)
    requires forall i :: 0 <= i < |topK| ==> topK[i].diagnosis == d
    ensures Diagnose(topK).diagnosis == d
    ensures Diagnose(topK).confidence == 100.0
  {
    UnanimousScores(topK, d);
    var t := TotalScore(topK) as real;
    ScaleDiv(100.0, t);
    assert DiagnosisShare(topK, d) == 100.0;
    forall e | e != d ensures DiagnosisShare(topK, e) == 0.0 {
      assert ScoreFor(topK, e) as real == 0.0;
    }
    var v := Diagnose(topK);
    assert v.votes.Get(d) == 100.0;
  }

  /** A lower bound on every score bounds the total from below. */
  lemma {:induction false} TotalAtLeast(es: seq<Scored>, lo: int)
    requires forall i :: 0 <= i < |es| ==> lo <= es[i].score
    ensures |es| * lo <= TotalScore(es)
  {
    if |es| > 0 {
      TotalAtLeast(es[..|es| - 1], lo);
    }
  }

  /** An upper bound on every score bounds the total from above. */
  lemma {:induction false} TotalAtMost(es: seq<Scored>, hi: int)
    requires forall i :: 0 <= i < |es| ==> es[i].score <= hi
    ensures TotalScore(es) <= |es| * hi
  {
    if |es| > 0 {
      TotalAtMost(es[..|es| - 1], hi);
    }
  }

  /** With no negative score, the total is at least the first row's score. */
  lemma {:induction false} TotalAtLeastFirst(es: seq<Scored>)
    requires |es| > 0
    requires forall i :: 0 <= i < |es| ==> es[i].score >= 0
    ensures TotalScore(es) >= es[0].score
  {
    if |es| > 1 {
      TotalAtLeastFirst(es[..|es| - 1]);
    }
  }
}
